=== FILE: README.md ===
# Is My Customer Moving: accounts and record rules in Dafny

This project models two parts of the IMCM back end, a Django service where home-service
companies track which of their clients are moving.

- **The account views** (`accounts/views.py`):
  - A company admin invites a user by e-mail. The invitee accepts the invite token and
    becomes an active user. An admin promotes, edits and deletes users.
  - The first admin of a company signs up with the company's access token and confirms
    their e-mail address through a signed token.
  - The bodies of the four one-time-password (TOTP) views: generate a secret, verify a
    first code to turn two-factor login on, validate a login code, and turn it off.
  - Protected endpoints require a scope in the caller's access token.
- **The record rules** (`data/models.py`): the STATUS choices and field defaults, the
  (company, name, address) uniqueness of clients, and the checks a referral between two
  companies of a franchise must pass before it is saved.

## Structure

- `records.dfy` (`Records`) defines the rows the views touch and the store (`Db`: companies,
  users, invite tokens and one id counter). It also defines the ORM queries as set
  comprehensions. `TheOnly` is Django's `.get()`: a result only when exactly one row matches.
- `manage_user.dfy` (`ManageUser`), `registration.dfy` (`Registration`) and
  `two_factor.dfy` (`TwoFactor`) give each request a specification function.
  - The function maps the store before the request to a `Step`: the store after, plus the answer.
  - Every exception path the view catches is an explicit failure outcome.
  - The `…Properties` modules prove what those requests promise across several calls.
- `account_store.dfy` (`AccountStore.Store`) is the store as a mutable object. Its handlers
  update rows field by field, as the views do. Each handler is proved to produce exactly
  the store and answer of its specification function.
- `scopes.dfy` (`Scopes`) models the `requires_scope` decorator. The "scope" claim is
  split on whitespace the way Python's `str.split()` does, and a loop looks for the
  required scope.
- `data_models.dfy` (`DataModels`, `DataModelsProperties`) models the record rules.

### The invite invariant

`ManageUserProperties.InvitesBacked` states: every invite token is the only token for its
(company, e-mail) pair, and that pair has exactly one pending user. Inviting and accepting
preserve it. Promoting does not, because `post` makes any user an admin whatever their
status. Promoting an invited user who has not accepted yet leaves the token with nobody to
activate, and accepting it then answers "Cannot find user" (`PromotingAPendingUserOrphansItsToken`).
PUT (which can change the address) and DELETE can break the invariant the same way.

## Model

| member | source | states |
|---|---|---|
| ManageUser.NewPendingUser | accounts/views.py:72-76 | the user row get_or_create adds is pending for the company and address, and unverified |
| ManageUser.EnsurePending | accounts/views.py:72-76 | get_or_create of the pending user: fails exactly when several rows match, or when none does and another user already has the address (the unique e-mail column); afterwards exactly one pending user exists for the pair; a created user is exactly the pending row added under the next id, an existing one leaves the store unchanged; unique addresses stay unique |
| ManageUser.IssueToken | accounts/views.py:77-83 | get_or_create of the invite token: fails exactly when several match; afterwards exactly one token for the pair, expiring one day after now; a new token is exactly the one row added under the next id, and a renewal rewrites only the existing token's row, with the new expiration |
| ManageUser.Invite | accounts/views.py:67-95 | no admin or no e-mail in the body gives "Data Error" with no change; otherwise a failing pending-user get_or_create gives "Data Error" with no change, a failing token get_or_create gives "Data Error" keeping the user row, and else the store is the one both get_or_creates leave and the answer is the company's roster exactly when the mail went out; companies never change |
| ManageUser.Activated | accounts/views.py:114-119 | the accepted user is active and verified, with the submitted password, names and phone; e-mail, company and every other field are unchanged |
| ManageUser.Accept | accounts/views.py:97-127 | each failure is the first check that fails, in the view's order: a missing or different address gives "Data Error on Invite Token", an expired token "Token Expired", a token without company "Data Error", not exactly one pending user "Cannot find user", an incomplete body "Data Error on Invite Token"; every failure leaves the store unchanged; no user or company is added |
| ManageUser.Promote | accounts/views.py:129-139 | the user's status becomes admin, nothing else changes, and the answer is the roster of the user's company |
| ManageUser.Post | accounts/views.py:64-143 | the id is tried as a company, then a token, then a user; "User Not Found" exactly when it is none of these, and then nothing changes |
| ManageUser.Put | accounts/views.py:144-159 | an unknown user gives "User Not Found"; for an existing user every other failure, a missing key or another user's address, gives "Data Error"; the answer is the user's data exactly when the user exists, the body has both names and the address, and no other user has that address; failures change nothing; on success exactly the names and e-mail of that user are overwritten, and unique addresses stay unique |
| ManageUser.Delete | accounts/views.py:160-172 | a one-element body naming no user gives "Data Error" and nothing changes; every other body removes exactly the listed users and returns the URL company's roster |
| ManageUserProperties.InviteLeavesOnePendingUserAndToken | accounts/views.py:72-89 | after an invite that passed its checks, for an address that is pending for the company or used by no one, there is exactly one pending user and one token for the pair, expiring in a day; the roster is returned exactly when the mail went out |
| ManageUserProperties.EnsurePendingKeepsAdmins | accounts/views.py:70-76 | a pending-user get_or_create that succeeds never removes an admin of the company |
| ManageUserProperties.RepeatInviteRenewsToken | accounts/views.py:77-83 | a second invite of the same address adds no user and no token, and moves the one token's expiration to a day after the second invite |
| ManageUserProperties.AcceptActivatesThePendingUser | accounts/views.py:100-121 | accepting succeeds exactly when the address matches, the token has not expired, it names a company with exactly one pending user for the address, and the body is complete; then that user alone is activated and the token is deleted |
| ManageUserProperties.AcceptedTokenIsSpent | accounts/views.py:97-141 | after a successful accept, posting the same token id answers "User Not Found" and changes nothing |
| ManageUserProperties.BackedPairsHaveOneToken | accounts/views.py:77 | while every token is backed, no (company, e-mail) pair has two tokens, so an invite's token get_or_create cannot fail |
| ManageUserProperties.EnsurePendingKeepsOtherPairs | accounts/views.py:72-76 | the pending-user get_or_create changes the pending users of no other (company, e-mail) pair |
| ManageUserProperties.IssueTokenKeepsOtherPairs | accounts/views.py:77-83 | the token get_or_create changes the tokens of no other (company, e-mail) pair |
| ManageUserProperties.InviteOfTakenAddressRefused | accounts/views.py:62-76 | inviting an address that another user has, and that is not pending for the company, answers "Data Error" and changes nothing |
| ManageUserProperties.UniqueEmailsMeanOnePending | accounts/views.py:72-76 | with unique addresses no (company, e-mail) pair has two pending users |
| ManageUserProperties.InviteKeepsEmailsUnique | accounts/views.py:67-95 | an invite keeps the addresses of the user table unique |
| ManageUserProperties.AcceptKeepsEmailsUnique | accounts/views.py:97-127 | accepting an invite keeps the addresses of the user table unique |
| ManageUserProperties.PromoteKeepsEmailsUnique | accounts/views.py:129-139 | promoting a user keeps the addresses of the user table unique |
| ManageUserProperties.RequestsKeepEmailsUnique | accounts/views.py:63-172 | every POST, PUT and DELETE keeps the addresses of the user table unique |
| ManageUserProperties.InvitePreservesBacking | accounts/views.py:72-83 | inviting preserves InvitesBacked |
| ManageUserProperties.AcceptPreservesBacking | accounts/views.py:100-121 | accepting preserves InvitesBacked |
| ManageUserProperties.PromotingAPendingUserOrphansItsToken | accounts/views.py:129-134 | a concrete store where promoting a pending invitee breaks InvitesBacked, and accepting the invite then answers "Cannot find user" |
| Registration.Collect | accounts/views.py:253-269 | the checks run in order; an error is collected exactly when its check fails, and the collected errors keep the checks' order |
| Registration.FieldErrors | accounts/views.py:253-270 | an error is listed exactly when its check fails (Fails: each of the six fields absent, or the address already taken), each once, in the view's order |
| Registration.NoFieldErrors | accounts/views.py:254-271 | a request that passes the field checks has all six fields and an address no user has |
| Registration.NewAdmin | accounts/views.py:276-285 | the created user is a verified admin of the company, with the submitted names, e-mail and phone and a salted password, and no OTP secret, URI or flags |
| Registration.Register | accounts/views.py:244-301 | field errors reject the request exactly when there are any; for a complete request "company not found" is answered exactly when no company or several match name and token, "Access Token Already Used" exactly when the one match has a verified user, and success exactly when it has none; only a success changes the store, adding exactly the new admin; unique addresses stay unique |
| Registration.DecodeJwt | accounts/views.py:225-233 | claims come back exactly when the signature is valid and any exp claim is not before the current second; an expired signature is reported exactly when a valid token's exp is before it |
| Registration.MarkVerified | accounts/views.py:226-229 | the user's isVerified becomes true and nothing else changes |
| Registration.VerifyRegistration | accounts/views.py:221-237 | activated exactly when the token decodes and names an existing user; "Activation Expired" exactly when its signature has expired; only activation changes the store, and only that user's flag |
| Registration.ConfirmClaims | accounts/views.py:308-320 | never a server error; the expiry page is shown exactly when exp, to the microsecond, is before now; the store changes only to verify an unverified user on an unexpired link |
| RegistrationProperties.RegistrationSucceedsOncePerCompany | accounts/views.py:273-297 | once a sign-up succeeds, no later sign-up for the same company succeeds, and it adds no user |
| RegistrationProperties.VerifyRegistrationIdempotent | accounts/views.py:227-229 | verifying twice leaves the same store as verifying once |
| RegistrationProperties.VerifyRegistrationOnlySetsFlag | accounts/views.py:221-237 | verification never clears the flag, never adds or removes a user, and changes no other field |
| Registration.ConfirmAsWritten | accounts/views.py:304-320 | a server error exactly when the user is unknown, the signature is bad, the exp claim is missing, or exp is before the current second; a server error changes nothing; otherwise the answer and store are those of ConfirmClaims |
| Registration.Confirm | accounts/views.py:304-320 | a server error exactly when the user is unknown, the signature is bad, or the exp claim is missing; a server error changes nothing; otherwise the answer and store are those of ConfirmClaims |
| RegistrationProperties.ConfirmAsWrittenHidesExpiry | accounts/views.py:304-318 | as written, a link whose exp is before the current second is a server error, so the expiry page shows only for a link expiring within the current second |
| RegistrationProperties.ExpiredLinkAnswers | accounts/views.py:304-318 | a link that expired two seconds ago is a server error as written and shows the expiry page as intended |
| RegistrationProperties.ConfirmReportsExpiry | accounts/views.py:308-320 | with the corrected decoding, an expired link shows the expiry page and changes nothing; an unexpired link verifies the user and redirects |
| TwoFactor.Generate | accounts/views.py:348-365 | an unknown user changes nothing; otherwise exactly the user's secret and provisioning URI are set, and the two flags are kept |
| TwoFactor.Verify | accounts/views.py:372-392 | success, answering that user, exactly when the user has a secret and the code passes the check with no time-step slack; then both flags are set; "OTP verification failed" exactly when the user has a secret and the code fails; an unknown user and a missing secret are reported as such; every answer but success changes nothing |
| TwoFactor.Validate | accounts/views.py:399-418 | success, answering that user, exactly when the user is verified, has a secret and the code passes with one step of slack; "OTP verification failed" exactly when such a user's code fails; a missing secret is reported before the not-verified fault; a missing user is a server error |
| TwoFactor.Disable | accounts/views.py:425-438 | the secret, the URI and both flags are cleared; an unknown user changes nothing |
| TwoFactorProperties.GenerateVerifyValidate | accounts/views.py:348-418 | generate then verify turns on both flags, and a later login code is validated |
| TwoFactorProperties.DisableThenValidate | accounts/views.py:372-438 | after disable, validation reports a missing secret and verification cannot turn the flags back on |
| TwoFactorProperties.RegenerateKeepsVerification | accounts/views.py:348-365 | regenerating keeps both flags, so a verified user validates against the new secret |
| Scopes.Split | accounts/views.py:51 | every piece of the split claim is non-empty and free of whitespace |
| Scopes.HasScope | accounts/views.py:52-54 | the loop finds the required scope exactly when it is one of the pieces |
| Scopes.Authorize | accounts/views.py:47-57 | access is granted exactly when the claim is present and the required scope is one of its pieces; a granted scope is a single word |
| Scopes.SplitWordThen | accounts/views.py:51 | a word followed by whitespace or by the end is split off whole |
| Scopes.SplitJoin | accounts/views.py:51 | splitting words joined by spaces gives the words back |
| Scopes.JoinedClaimGrantsListed | accounts/views.py:50-54 | a claim of space-separated scopes grants exactly the listed scopes |
| AccountStore.Store.Post | accounts/views.py:64-143 | the new store and the answer are those of ManageUser.Post |
| AccountStore.Store.Invite | accounts/views.py:67-95 | the new store and the answer are those of ManageUser.Invite |
| AccountStore.Store.Accept | accounts/views.py:97-127 | the new store and the answer are those of ManageUser.Accept |
| AccountStore.Store.Promote | accounts/views.py:129-139 | the new store and the answer are those of ManageUser.Promote |
| AccountStore.Store.Put | accounts/views.py:144-159 | the new store and the answer are those of ManageUser.Put |
| AccountStore.Store.Delete | accounts/views.py:160-172 | the new store and the answer are those of ManageUser.Delete |
| AccountStore.Store.Register | accounts/views.py:244-301 | the new store and the answer are those of Registration.Register |
| AccountStore.Store.VerifyRegistration | accounts/views.py:221-237 | the new store and the answer are those of Registration.VerifyRegistration |
| AccountStore.Store.Confirmation | accounts/views.py:304-320 | the new store and the answer are those of the corrected Registration.Confirm |
| AccountStore.Store.OtpGenerate | accounts/views.py:348-365 | the new store and the answer are those of TwoFactor.Generate |
| AccountStore.Store.OtpVerify | accounts/views.py:372-392 | the new store and the answer are those of TwoFactor.Verify |
| AccountStore.Store.OtpValidate | accounts/views.py:399-418 | writes nothing and answers TwoFactor.Validate |
| AccountStore.Store.OtpDisable | accounts/views.py:425-438 | the new store and the answer are those of TwoFactor.Disable |
| DataModels.NewClient | data/models.py:24-40 | a new client has the default status "No Change", which is one of the STATUS choices, is not contacted, and has an empty note, price 0, housing type " " and year 0 |
| DataModels.NewHomeListing | data/models.py:69-79 | a new listing has status "Off Market", which is not one of the STATUS choices; listed " ", price 0, housing type " ", year 0 |
| DataModels.SaveClient | data/models.py:44-45 | saving is refused exactly when another client has the same company, name and address (a NULL company never clashes); otherwise the row is written, and uniqueness is preserved |
| DataModels.CheckReferral | data/models.py:107-115 | a referral is accepted exactly when it links two different companies of its franchise and its client belongs to the referring company; each refusal is the first check that fails, including the AttributeError raised when a check reaches through a NULL link |
| DataModels.SaveReferral | data/models.py:107-117 | the verdict is that of the four checks; a referral that passes them is written under its id, any other leaves the referrals as they were, so the store keeps only checked referrals |
| DataModelsProperties.StatusChoicesDistinct | data/models.py:8-15 | the six STATUS values are distinct, the client default is among them, and the listing default is not |
| DataModelsProperties.SecondIdenticalClientRefused | data/models.py:44-45 | a second client with the same company, name and address is refused, while two such clients without a company are both saved |
| DataModelsProperties.SavedReferralClientComesFromReferrer | data/models.py:107-117 | a saved referral's client belongs to the referring company, which is in the franchise and differs from the referred company |
| DataModelsProperties.ContactedFlagIrrelevant | data/models.py:104-117 | the contacted flag has no effect on the checks |

## Left out

- The TOTP algorithm (pyotp) is the parameter `totp(secret, code, window)`: whether a code is right at the current instant with `window` steps of slack. The random secret is a parameter, and so is the provisioning URI builder; the builder also absorbs the `email.lower()` it is given.
- `make_password` is kept symbolic as `MadeFrom(raw, salt)`; there is no hashing. The uuid4 salt of registration is a parameter.
- JWT signing is reduced to a flag saying whether the HS256 signature checks. The token's claims are an optional user id and an optional exp.
- Registration.DecodeJwt follows PyJWT 1.x, the API the views call (`jwt.decode(token, verify=False)` at views.py:49 exists only there): a token is expired when its exp is strictly before the current whole second, with no leeway.
- The clock is a parameter: `now` in whole seconds for the decoder, `nowUs` in microseconds for the confirmation view's own `datetime.now()`. The view's two clock reads are taken as one instant.
- Mail delivery is the flag `mailSent`; templates, serializers and the HTTP response objects are left out. Outcomes name the answer: a roster is the set of user ids serialized.
- Each request runs alone; the ORM's concurrency and transactions are not modelled (the views use none).
- Django REST framework's authentication and permission classes are not modelled; each view body is modelled as if the request reached it. As declared, the four OTP views pair `IsAuthenticated` with an empty `authentication_classes` (accounts/views.py:344-346, 368-370, 395-397, 421-423), so the request's user is anonymous and every request is refused with 403 before `post` runs; TwoFactor and the Store's OTP handlers model what `post` would do.
- Invite tokens and users draw their ids from the one counter `nextId`, so a token id never names a user; in the database they are separate tables with separate keys. AcceptedTokenIsSpent and PromotingAPendingUserOrphansItsToken rely on the ids being distinct.
- `get_token_auth_header`, `AuthenticatedUserView`, `UserViewSet` and `UserListView` are outside the modelled core.
- Serializers, admin registrations, URL routing, `zipTime`/`formatToday` and the ZipCode, ClientUpdate, ScrapeResponse, HomeListingTags and Task models are outside the modelled core, except for the STATUS defaults they share.
- accounts/models.py is not part of this model. These are assumed: a new invite token expires one day after it is created; a new pending user has empty names, no phone, no usable password, and OTP fields cleared, and every new user (pending or the first admin) starts with no OTP secret, no URI and both OTP flags off; the user table's e-mail column is unique, so an insert or save that repeats another user's address raises IntegrityError.
- TwoFactor.Validate: a body without "otp" raises before any check and is not modelled; `code` is always given. The same holds for "otp" in TwoFactor.Verify and for "id" in all four OTP views.
- ManageUser.Delete: the body is modelled as a list of ids; a body that is not a list is not modelled.
- DataModels.NewClient: the nullable fields without defaults (zipCode, city, state, servTitanID, phoneNumber, equipmentInstalledDate, tags) are not modelled.
- Django does not enforce `choices` on save, and the model does not restrict status values either.
- DataModels.CheckReferral: requires every non-NULL link to name an existing row, as the database's foreign keys guarantee; a referral whose `franchise` is unset (RelatedObjectDoesNotExist) is not modelled.
- Field length limits (`max_length`) are not modelled.

## Findings

| source | as written | input that shows it | evidently intended | confidence | as-written member | corrected member |
|---|---|---|---|---|---|---|
| accounts/views.py:306-318 | `jwt.decode` with default options raises ExpiredSignatureError on a token that expired a second or more ago, and nothing catches it, so the "Your activation link has been expired" branch runs only for a link that expired within the current second | a valid signed token whose exp is two seconds before now, for an existing user: a server error instead of the expiry page | decode the signature without rejecting on exp, so that the view's own comparison shows the expiry page | not executed | Registration.ConfirmAsWritten (RegistrationProperties.ConfirmAsWrittenHidesExpiry, RegistrationProperties.ExpiredLinkAnswers) | Registration.Confirm (RegistrationProperties.ConfirmReportsExpiry) |

=== FILE: account_store.dfy ===
/** The account views as handlers over one mutable store: each handler looks a
    row up, assigns its fields one by one and writes it back, or adds or deletes
    rows, as the views do through the ORM. Each handler is proved to leave the
    store, and to answer, exactly as the request's specification function in
    ManageUser, Registration and TwoFactor says. */
module AccountStore {
  import opened Records
  import ManageUser
  import Registration
  import TwoFactor

  class Store {
    var companies: map<Id, Company>
    var users: map<Id, User>
    var tokens: map<Id, InviteToken>
    var nextId: Id

    /** The store's contents as a value. */
    function Snapshot(): Db
      reads this
    {
      Db(companies, users, tokens, nextId)
    }

    ghost predicate Valid()
      reads this
    {
      Records.Valid(Snapshot())
    }

    constructor (db: Db)
      requires Records.Valid(db)
      ensures Valid() && Snapshot() == db
    {
      companies, users, tokens, nextId := db.companies, db.users, db.tokens, db.nextId;
    }

    // ---- ManageUserView --------------------------------------------------

    /** POST: the id is tried as a company, an invite token, then a user. */
    method Post(id: Id, body: ManageUser.Body, now: int, mailSent: bool) returns (r: ManageUser.Outcome)
      requires Valid()
      modifies this
      ensures Valid()
      ensures Step(Snapshot(), r) == ManageUser.Post(old(Snapshot()), id, body, now, mailSent)
    {
      if id in companies {
        r := Invite(id, body, now, mailSent);
      } else if id in tokens {
        r := Accept(id, body, now);
      } else if id in users {
        r := Promote(id);
      } else {
        r := ManageUser.Failed(ManageUser.UserNotFound);
      }
    }

    method Invite(company: Id, body: ManageUser.Body, now: int, mailSent: bool) returns (r: ManageUser.Outcome)
      requires Valid()
      modifies this
      ensures Valid()
      ensures Step(Snapshot(), r) == ManageUser.Invite(old(Snapshot()), company, body, now, mailSent)
    {
      ghost var db0 := Snapshot();
      if AdminsOf(users, company) == {} || "email" !in body {
        return ManageUser.Failed(ManageUser.DataError);
      }
      var email := body["email"];
      // CustomUser.objects.get_or_create(email, company, status='pending')
      var pending := PendingFor(users, company, email);
      if |pending| > 1 {
        return ManageUser.Failed(ManageUser.DataError);
      }
      if pending == {} {
        // the insert breaks the unique e-mail column when the address is taken
        if WithEmail(users, email) != {} {
          return ManageUser.Failed(ManageUser.DataError);
        }
        users := users[nextId := ManageUser.NewPendingUser(company, email)];
        nextId := nextId + 1;
      }
      ghost var db1 := Snapshot();
      assert db1 == ManageUser.EnsurePending(db0, company, email).value;
      // InviteToken.objects.get_or_create(company, email)
      var matching := TokensFor(tokens, company, email);
      if |matching| > 1 {
        return ManageUser.Failed(ManageUser.DataError);
      }
      if matching == {} {
        tokens := tokens[nextId := InviteToken(Some(company), email, now + Day)];
        nextId := nextId + 1;
      } else {
        var t :| t in matching;
        SingletonIs(matching, t);
        tokens := tokens[t := tokens[t].(expiration := now + Day)];
      }
      assert Snapshot() == ManageUser.IssueToken(db1, company, email, now).value;
      // send_mail(..., fail_silently=False)
      if !mailSent {
        return ManageUser.Failed(ManageUser.DataError);
      }
      r := ManageUser.Roster(RosterOf(users, Some(company)));
    }

    method Accept(token: Id, body: ManageUser.Body, now: int) returns (r: ManageUser.Outcome)
      requires Valid() && token in tokens
      modifies this
      ensures Valid()
      ensures Step(Snapshot(), r) == ManageUser.Accept(old(Snapshot()), token, body, now)
    {
      // InviteToken.objects.get(id=token, email=body['email'])
      if "email" !in body || tokens[token].email != body["email"] {
        return ManageUser.Failed(ManageUser.TokenDataError);
      }
      var t := tokens[token];
      if !(t.expiration > now) {
        return ManageUser.Failed(ManageUser.TokenExpired);
      }
      if t.company.None? {
        return ManageUser.Failed(ManageUser.DataError);
      }
      var pending := PendingFor(users, t.company.value, body["email"]);
      if |pending| != 1 {
        return ManageUser.Failed(ManageUser.CannotFindUser);
      }
      if !ManageUser.HasAcceptFields(body) {
        return ManageUser.Failed(ManageUser.TokenDataError);
      }
      var id :| id in pending;
      SingletonIs(pending, id);
      var user := users[id];
      user := user.(password := MadeFrom(body["password"], None));
      user := user.(status := Active);
      user := user.(firstName := body["firstName"]);
      user := user.(lastName := body["lastName"]);
      user := user.(phone := Some(body["phone"]));
      user := user.(isVerified := true);
      users := users[id := user];
      tokens := tokens - {token};
      r := ManageUser.UserData(id);
    }

    method Promote(id: Id) returns (r: ManageUser.Outcome)
      requires Valid() && id in users
      modifies this
      ensures Valid()
      ensures Step(Snapshot(), r) == ManageUser.Promote(old(Snapshot()), id)
    {
      var user := users[id];
      user := user.(status := Admin);
      users := users[id := user];
      r := ManageUser.Roster(RosterOf(users, user.company));
    }

    /** PUT: overwrite a user's names and e-mail address. */
    method Put(id: Id, body: ManageUser.Body) returns (r: ManageUser.Outcome)
      requires Valid()
      modifies this
      ensures Valid()
      ensures Step(Snapshot(), r) == ManageUser.Put(old(Snapshot()), id, body)
    {
      if id !in users {
        return ManageUser.Failed(ManageUser.UserNotFound);
      }
      if !("firstName" in body && "lastName" in body && "email" in body) {
        return ManageUser.Failed(ManageUser.DataError);
      }
      var user := users[id];
      user := user.(firstName := body["firstName"]);
      user := user.(lastName := body["lastName"]);
      user := user.(email := body["email"]);
      // user.save(): the unique e-mail column refuses another user's address
      if WithEmail(users, user.email) - {id} != {} {
        return ManageUser.Failed(ManageUser.DataError);
      }
      users := users[id := user];
      r := ManageUser.UserData(id);
    }

    /** DELETE: remove one named user, or whichever of several ids exist. */
    method Delete(company: Id, ids: seq<Id>) returns (r: ManageUser.Outcome)
      requires Valid()
      modifies this
      ensures Valid()
      ensures Step(Snapshot(), r) == ManageUser.Delete(old(Snapshot()), company, ids)
    {
      var listed := set i | i in ids;
      if |ids| == 1 {
        // CustomUser.objects.get(id=ids[0]).delete()
        if ids[0] !in users {
          return ManageUser.Failed(ManageUser.DataError);
        }
        assert listed == {ids[0]} by {
          assert ids == [ids[0]];
        }
        users := users - {ids[0]};
      } else {
        // CustomUser.objects.filter(id__in=ids).delete()
        users := users - listed;
      }
      r := ManageUser.Roster(RosterOf(users, Some(company)));
    }

    // ---- RegisterView, VerifyRegistrationView, confirmation ---------------

    method Register(req: Registration.RegisterRequest, salt: string) returns (r: Registration.RegisterOutcome)
      requires Valid()
      modifies this
      ensures Valid()
      ensures Step(Snapshot(), r) == Registration.Register(old(Snapshot()), req, salt)
    {
      var errors := Registration.FieldErrors(users, req);
      if errors != [] {
        return Registration.Rejected(errors);
      }
      Registration.NoFieldErrors(users, req);
      // Company.objects.get(name=company, accessToken=accessToken)
      var matching := CompaniesMatching(companies, req.company.value, req.accessToken.value);
      if |matching| != 1 {
        return Registration.CompanyNotFound;
      }
      var company :| company in matching;
      SingletonIs(matching, company);
      if VerifiedOf(users, company) != {} {
        return Registration.AccessTokenAlreadyUsed;
      }
      users := users[nextId := Registration.NewAdmin(req, company, salt)];
      r := Registration.Registered(nextId);
      nextId := nextId + 1;
    }

    method VerifyRegistration(token: Option<Registration.Jwt>, now: int) returns (r: Registration.Activation)
      requires Valid()
      modifies this
      ensures Valid()
      ensures Step(Snapshot(), r) == Registration.VerifyRegistration(old(Snapshot()), token, now)
    {
      if token.None? {
        return Registration.InvalidToken;
      }
      var decoded := Registration.DecodeJwt(token.value, now);
      if decoded.ExpiredSignature? {
        return Registration.ActivationExpired;
      }
      if decoded.DecodeError? || decoded.userId.None? || decoded.userId.value !in users {
        return Registration.InvalidToken;
      }
      var id := decoded.userId.value;
      if !users[id].isVerified {
        users := users[id := users[id].(isVerified := true)];
      }
      r := Registration.ActivationOk;
    }

    /** The confirmation link, with the exp claim left to the view's own
        comparison (see Registration.Confirm); nowUs is the clock in
        microseconds. */
    method Confirmation(pk: Registration.Jwt, id: Id, nowUs: int) returns (r: Registration.ConfirmAnswer)
      requires Valid()
      modifies this
      ensures Valid()
      ensures Step(Snapshot(), r) == Registration.Confirm(old(Snapshot()), pk, id, nowUs)
    {
      if id !in users || !pk.signatureValid || pk.exp.None? {
        return Registration.ServerError;
      }
      var exp := pk.exp.value;
      if !users[id].isVerified && exp * Micro > nowUs {
        users := users[id := users[id].(isVerified := true)];
        r := Registration.RedirectToLogin;
      } else if exp * Micro < nowUs {
        r := Registration.LinkExpired;
      } else {
        r := Registration.RedirectToLogin;
      }
    }

    // ---- the OTP views -----------------------------------------------------

    method OtpGenerate(id: Id, secret: string, uri: (string, string) -> string) returns (r: TwoFactor.OtpOutcome)
      requires Valid()
      modifies this
      ensures Valid()
      ensures Step(Snapshot(), r) == TwoFactor.Generate(old(Snapshot()), id, secret, uri)
    {
      if id !in users {
        return TwoFactor.NoSuchUser;
      }
      var user := users[id];
      user := user.(otpAuthUrl := Some(uri(secret, user.email)));
      user := user.(otpBase32 := Some(secret));
      users := users[id := user];
      r := TwoFactor.OtpOk(id);
    }

    method OtpVerify(id: Id, code: string, totp: TwoFactor.Totp) returns (r: TwoFactor.OtpOutcome)
      requires Valid()
      modifies this
      ensures Valid()
      ensures Step(Snapshot(), r) == TwoFactor.Verify(old(Snapshot()), id, code, totp)
    {
      if id !in users {
        return TwoFactor.NoSuchUser;
      }
      var user := users[id];
      if user.otpBase32.None? {
        return TwoFactor.OtpNotGenerated;
      }
      if totp(user.otpBase32.value, code, 0) {
        user := user.(otpEnabled := true);
        user := user.(otpVerified := true);
        users := users[id := user];
        r := TwoFactor.OtpOk(id);
      } else {
        r := TwoFactor.OtpRejected;
      }
    }

    /** Login-time validation: reads the store, writes nothing. */
    method OtpValidate(id: Id, code: string, totp: TwoFactor.Totp) returns (r: TwoFactor.OtpOutcome)
      ensures r == TwoFactor.Validate(Snapshot(), id, code, totp)
    {
      if id !in users {
        return TwoFactor.ServerError;
      }
      var user := users[id];
      var errors: seq<string> := [];
      if !user.otpVerified {
        errors := errors + ["One Time Password incorrect"];
      }
      if user.otpBase32.None? {
        return TwoFactor.OtpNotGenerated;
      }
      if |errors| > 0 {
        return TwoFactor.OtpNotVerified;
      }
      if totp(user.otpBase32.value, code, 1) {
        r := TwoFactor.OtpOk(id);
      } else {
        r := TwoFactor.OtpRejected;
      }
    }

    method OtpDisable(id: Id) returns (r: TwoFactor.OtpOutcome)
      requires Valid()
      modifies this
      ensures Valid()
      ensures Step(Snapshot(), r) == TwoFactor.Disable(old(Snapshot()), id)
    {
      if id !in users {
        return TwoFactor.NoSuchUser;
      }
      var user := users[id];
      user := user.(otpEnabled := false);
      user := user.(otpVerified := false);
      user := user.(otpBase32 := None);
      user := user.(otpAuthUrl := None);
      users := users[id := user];
      r := TwoFactor.OtpOk(id);
    }
  }
}

=== FILE: data_models.dfy ===
/** The record rules of data/models.py: the STATUS choices and field defaults,
    the (company, name, address) uniqueness of clients, and the checks a
    referral must pass before it is written. Companies are the account-side
    Company records (their franchise field); clients and referrals are keyed by
    their UUID primary keys, modelled as Id. */
module DataModels {
  import opened Records

  // ---- STATUS and the defaults ---------------------------------------------

  /** The six STATUS choices (stored value and label are the same text). */
  const StatusChoices: seq<string> :=
    ["House For Sale", "House For Rent", "House Recently Sold (6)",
     "Recently Sold (12)", "Taken Off Market", "No Change"]

  /** Default status of a client (and of a client update or scrape response). */
  const ClientStatusDefault: string := "No Change"

  /** Default status of a home listing. */
  const ListingStatusDefault: string := "Off Market"

  /** A client row, with the fields the rules here read or give defaults. */
  datatype Client = Client(
    name: string, address: string, company: Option<Id>, status: string,
    contacted: bool, note: Option<string>, price: Option<int>,
    housingType: Option<string>, yearBuilt: Option<int>)

  /** A home listing row, with its defaulted fields. */
  datatype HomeListing = HomeListing(
    address: string, status: string, listed: string, price: int,
    housingType: string, yearBuilt: int)

  /** Client(name=..., address=..., company=...) with every other field left
      at its default. */
  function NewClient(name: string, address: string, company: Option<Id>): (c: Client)
    ensures c.name == name && c.address == address && c.company == company
    ensures c.status in StatusChoices && c.status == StatusChoices[5]
    ensures !c.contacted && c.note == Some("") && c.price == Some(0)
    ensures c.housingType == Some(" ") && c.yearBuilt == Some(0)
  {
    Client(name, address, company, ClientStatusDefault, false, Some(""), Some(0), Some(" "), Some(0))
  }

  /** HomeListing(address=...) with every other field left at its default. Its
      status default is not one of the field's own choices; Django checks
      choices only in form and model validation, never on save, so the value
      is stored as it is. */
  function NewHomeListing(address: string): (h: HomeListing)
    ensures h.address == address
    ensures h.status !in StatusChoices
    ensures h.listed == " " && h.price == 0 && h.housingType == " " && h.yearBuilt == 0
  {
    HomeListing(address, ListingStatusDefault, " ", 0, " ", 0)
  }

  // ---- unique_together = ('company', 'name', 'address') ---------------------

  /** Two clients clash under the unique constraint. A NULL company never
      equals another NULL in SQL, so clients without a company never clash. */
  predicate Clash(a: Client, b: Client) {
    a.company.Some? && a.company == b.company && a.name == b.name && a.address == b.address
  }

  ghost predicate ClientsUnique(clients: map<Id, Client>) {
    forall i, j :: i in clients && j in clients && i != j ==> !Clash(clients[i], clients[j])
  }

  /** Client.save(): insert or update row `id`; the database refuses the write
      (IntegrityError, None here) when another row has the same company, name
      and address. */
  function SaveClient(clients: map<Id, Client>, id: Id, c: Client): (r: Option<map<Id, Client>>)
    ensures r.None? <==> exists k :: k in clients && k != id && Clash(clients[k], c)
    ensures r.Some? ==> r.value == clients[id := c]
    ensures ClientsUnique(clients) && r.Some? ==> ClientsUnique(r.value)
  {
    if exists k :: k in clients && k != id && Clash(clients[k], c) then None
    else Some(clients[id := c])
  }

  // ---- Referral.save --------------------------------------------------------

  /** A referral row: the franchise is required, the rest are nullable. */
  datatype Referral = Referral(
    franchise: Id, referredFrom: Option<Id>, referredTo: Option<Id>,
    client: Option<Id>, contacted: bool)

  /** Why save() refuses a referral. The first four are the ValidationErrors;
      NoneAttribute is the AttributeError raised when a check reaches through
      a NULL foreign key. */
  datatype ReferralError =
    SameCompany | OutsideFranchise | ClientOutsideFranchise | ClientNotFromReferrer | NoneAttribute

  function ErrorMessage(e: ReferralError): string
    requires e != NoneAttribute
  {
    match e
    case SameCompany => "Referred From and Referred To cannot be the same"
    case OutsideFranchise => "Both Referred From and Referred To must be part of the franchise"
    case ClientOutsideFranchise => "Client must be part of the franchise"
    case ClientNotFromReferrer => "Client must have the same company as Referred From"
  }

  datatype Verdict = Saved | Refused(error: ReferralError)

  /** Every non-NULL foreign key of the referral, and of its client, names an
      existing row (the database's foreign key constraints). */
  predicate Resolves(companies: map<Id, Company>, clients: map<Id, Client>, r: Referral) {
    && (r.referredFrom.Some? ==> r.referredFrom.value in companies)
    && (r.referredTo.Some? ==> r.referredTo.value in companies)
    && (r.client.Some? ==> r.client.value in clients)
    && (r.client.Some? && clients[r.client.value].company.Some? ==>
          clients[r.client.value].company.value in companies)
  }

  /** The franchise of an existing company. */
  function FranchiseOf(companies: map<Id, Company>, c: Id): Option<Id>
    requires c in companies
  {
    companies[c].franchise
  }

  /** The company of the referral's client, when it has both. */
  function ClientCompany(clients: map<Id, Client>, r: Referral): Option<Id>
    requires r.client.Some? ==> r.client.value in clients
  {
    if r.client.None? then None else clients[r.client.value].company
  }

  /** The four checks of save(), in order, each `or` evaluated left to right. */
  function CheckReferral(companies: map<Id, Company>, clients: map<Id, Client>, r: Referral): (v: Verdict)
    requires Resolves(companies, clients, r)
    // Only a referral between two different companies of the referral's
    // franchise, for a client of the referring company, is written.
    ensures v == Saved <==>
              && r.referredFrom.Some? && r.referredTo.Some? && r.referredFrom != r.referredTo
              && FranchiseOf(companies, r.referredFrom.value) == Some(r.franchise)
              && FranchiseOf(companies, r.referredTo.value) == Some(r.franchise)
              && ClientCompany(clients, r) == r.referredFrom
    // Each refusal is the first check that fails.
    ensures v == Refused(SameCompany) <==> r.referredFrom == r.referredTo
    ensures v == Refused(OutsideFranchise) <==>
              && r.referredFrom != r.referredTo && r.referredFrom.Some?
              && (|| FranchiseOf(companies, r.referredFrom.value) != Some(r.franchise)
                  || (r.referredTo.Some? && FranchiseOf(companies, r.referredTo.value) != Some(r.franchise)))
    ensures v == Refused(ClientOutsideFranchise) ==>
              && r.referredFrom.Some? && r.referredTo.Some? && r.referredFrom != r.referredTo
              && ClientCompany(clients, r).Some?
              && FranchiseOf(companies, ClientCompany(clients, r).value) != Some(r.franchise)
    ensures v == Refused(ClientNotFromReferrer) ==>
              && ClientCompany(clients, r).Some?
              && FranchiseOf(companies, ClientCompany(clients, r).value) == Some(r.franchise)
              && ClientCompany(clients, r) != r.referredFrom
    // Reaching through NULL: a missing referrer, or a missing referee after a
    // referrer of the franchise, or a client or client company that is NULL.
    ensures v == Refused(NoneAttribute) <==>
              && r.referredFrom != r.referredTo
              && (|| r.referredFrom.None?
                  || (FranchiseOf(companies, r.referredFrom.value) == Some(r.franchise)
                      && (|| r.referredTo.None?
                          || (FranchiseOf(companies, r.referredTo.value) == Some(r.franchise)
                              && ClientCompany(clients, r).None?))))
  {
    if r.referredFrom == r.referredTo then Refused(SameCompany)
    else if r.referredFrom.None? then Refused(NoneAttribute)
    else if FranchiseOf(companies, r.referredFrom.value) != Some(r.franchise) then Refused(OutsideFranchise)
    else if r.referredTo.None? then Refused(NoneAttribute)
    else if FranchiseOf(companies, r.referredTo.value) != Some(r.franchise) then Refused(OutsideFranchise)
    else if ClientCompany(clients, r).None? then Refused(NoneAttribute)
    else if FranchiseOf(companies, ClientCompany(clients, r).value) != Some(r.franchise) then Refused(ClientOutsideFranchise)
    else if ClientCompany(clients, r) != r.referredFrom then Refused(ClientNotFromReferrer)
    else Saved
  }

  /** Every stored referral passes the checks against the current rows. */
  ghost predicate ReferralsChecked(companies: map<Id, Company>, clients: map<Id, Client>,
                                   referrals: map<Id, Referral>) {
    forall k :: k in referrals ==>
      Resolves(companies, clients, referrals[k]) && CheckReferral(companies, clients, referrals[k]) == Saved
  }

  /** Referral.save(): the row is written only when every check passes. */
  function SaveReferral(companies: map<Id, Company>, clients: map<Id, Client>,
                        referrals: map<Id, Referral>, id: Id, r: Referral): (s: (Verdict, map<Id, Referral>))
    requires Resolves(companies, clients, r)
    ensures s.0 == CheckReferral(companies, clients, r)
    ensures s.0 == Saved ==> s.1 == referrals[id := r]
    ensures s.0 != Saved ==> s.1 == referrals
    ensures ReferralsChecked(companies, clients, referrals) ==> ReferralsChecked(companies, clients, s.1)
  {
    var v := CheckReferral(companies, clients, r);
    if v == Saved then (v, referrals[id := r]) else (v, referrals)
  }
}

// ---- properties of the record rules ------------------------------------------
module DataModelsProperties {
  import opened Records
  import opened DataModels

  /** The six choices are distinct, and the client default is among them. */
  lemma StatusChoicesDistinct()
    ensures |StatusChoices| == 6
    ensures forall i, j :: 0 <= i < j < |StatusChoices| ==> StatusChoices[i] != StatusChoices[j]
    ensures ClientStatusDefault in StatusChoices && ListingStatusDefault !in StatusChoices
  {
  }

  /** A second client with the same company, name and address is refused,
      while the same pair without a company is accepted twice. */
  lemma SecondIdenticalClientRefused(clients: map<Id, Client>, id1: Id, id2: Id,
                                     name: string, address: string, company: Id)
    requires id1 != id2 && id1 !in clients && id2 !in clients && ClientsUnique(clients)
    requires (forall k :: k in clients ==> !Clash(clients[k], NewClient(name, address, Some(company))))
    ensures var first := SaveClient(clients, id1, NewClient(name, address, Some(company)));
            && first.Some?
            && SaveClient(first.value, id2, NewClient(name, address, Some(company))).None?
    ensures var first := SaveClient(clients, id1, NewClient(name, address, None));
            && first.Some?
            && SaveClient(first.value, id2, NewClient(name, address, None)).Some?
  {
    var c := NewClient(name, address, Some(company));
    var first := SaveClient(clients, id1, c);
    assert first.value[id1] == c && id1 != id2 && Clash(c, c);
  }

  /** A referral that was saved keeps the client with its referrer: the
      client's company is the referring company, and it belongs to the
      referral's franchise. */
  lemma SavedReferralClientComesFromReferrer(companies: map<Id, Company>, clients: map<Id, Client>,
                                             r: Referral)
    requires Resolves(companies, clients, r)
    requires CheckReferral(companies, clients, r) == Saved
    ensures r.client.Some? && clients[r.client.value].company == r.referredFrom
    ensures r.referredTo != r.referredFrom
    ensures FranchiseOf(companies, clients[r.client.value].company.value) == Some(r.franchise)
  {
  }

  /** Checking ignores the contacted flag, so marking a saved referral as
      contacted saves it again. */
  lemma ContactedFlagIrrelevant(companies: map<Id, Company>, clients: map<Id, Client>,
                                r: Referral, contacted: bool)
    requires Resolves(companies, clients, r)
    ensures CheckReferral(companies, clients, r.(contacted := contacted)) == CheckReferral(companies, clients, r)
  {
  }
}

=== FILE: manage_user.dfy ===
/** ManageUserView (accounts/views.py): one id in the URL, probed as a company
    (invite a user), then as an invite token (accept the invite), then as a user
    (promote to admin); PUT edits a user and DELETE removes users. Each request
    is a function from the store before to the store after and the answer. */
module ManageUser {
  import opened Records

  /** The failures the view answers with HTTP 400. */
  datatype Failure = DataError | TokenExpired | TokenDataError | CannotFindUser | UserNotFound

  /** The "status" text of each failure. */
  function StatusText(f: Failure): string {
    match f
    case DataError => "Data Error"
    case TokenExpired => "Token Expired"
    case TokenDataError => "Data Error on Invite Token"
    case CannotFindUser => "Cannot find user"
    case UserNotFound => "User Not Found"
  }

  /** A serialized roster (the users of one company), one serialized user, or a failure. */
  datatype Outcome = Roster(users: set<Id>) | UserData(user: Id) | Failed(failure: Failure)

  /** The JSON request body; a missing key raises KeyError in the view. */
  type Body = map<string, string>

  /** The row get_or_create adds for an invited e-mail address. */
  function NewPendingUser(company: Id, email: string): (u: User)
    ensures IsPendingFor(u, company, email) && !u.isVerified
  {
    User(email, Some(company), Pending, "", "", None, Unusable, false, None, None, false, false)
  }

  // ---- POST: invite ------------------------------------------------------

  /** get_or_create of the pending user for (company, email). None when several
      rows match (MultipleObjectsReturned), or when none does and another user
      already has the address: the insert then breaks the unique e-mail column
      (IntegrityError). */
  ghost function EnsurePending(db: Db, company: Id, email: string): (r: Option<Db>)
    requires Valid(db)
    ensures r.None? <==> |PendingFor(db.users, company, email)| > 1
                         || (PendingFor(db.users, company, email) == {} && WithEmail(db.users, email) != {})
    ensures r.Some? ==> Valid(r.value) && |PendingFor(r.value.users, company, email)| == 1
    ensures r.Some? ==> r.value.companies == db.companies && r.value.tokens == db.tokens
    ensures r.Some? && PendingFor(db.users, company, email) != {} ==> r.value == db
    ensures r.Some? && PendingFor(db.users, company, email) == {} ==>
              r.value == AddUser(db, NewPendingUser(company, email))
    ensures r.Some? && EmailsUnique(db.users) ==> EmailsUnique(r.value.users)
  {
    var pending := PendingFor(db.users, company, email);
    if |pending| > 1 then None
    else if pending == {} then
      if WithEmail(db.users, email) != {} then None
      else
        var db' := AddUser(db, NewPendingUser(company, email));
        PendingForUpdate(db.users, db.nextId, NewPendingUser(company, email), company, email);
        if EmailsUnique(db.users) then
          UpdateKeepsEmailsUnique(db.users, db.nextId, NewPendingUser(company, email));
          Some(db')
        else Some(db')
    else Some(db)
  }

  /** get_or_create of the invite token for (company, email): a new token expires
      one day from now; an existing one has its expiration reset to one day from
      now. None when several tokens match. */
  ghost function IssueToken(db: Db, company: Id, email: string, now: int): (r: Option<Db>)
    requires Valid(db)
    ensures r.None? <==> |TokensFor(db.tokens, company, email)| > 1
    ensures r.Some? ==> Valid(r.value) && r.value.users == db.users && r.value.companies == db.companies
    ensures r.Some? ==> exists t :: TokensFor(r.value.tokens, company, email) == {t}
                                    && r.value.tokens[t].expiration == now + Day
    ensures r.Some? && TokensFor(db.tokens, company, email) != {} ==>
              TokensFor(r.value.tokens, company, email) == TokensFor(db.tokens, company, email)
              && r.value.nextId == db.nextId
    // the one token written, and nothing else
    ensures r.Some? && TokensFor(db.tokens, company, email) == {} ==>
              r.value == AddToken(db, InviteToken(Some(company), email, now + Day))
    ensures r.Some? && TokensFor(db.tokens, company, email) != {} ==>
              r.value == db.(tokens := db.tokens[TheOnly(TokensFor(db.tokens, company, email)).value :=
                                                 InviteToken(Some(company), email, now + Day)])
  {
    var matching := TokensFor(db.tokens, company, email);
    if |matching| > 1 then None
    else if matching == {} then
      var t := InviteToken(Some(company), email, now + Day);
      TokensForUpdate(db.tokens, db.nextId, t, company, email);
      Some(AddToken(db, t))
    else
      // the renewed row keeps its company and address, which are the pair's
      var t := TheOnly(matching).value;
      var renewed := InviteToken(Some(company), email, now + Day);
      TokensForUpdate(db.tokens, t, renewed, company, email);
      Some(db.(tokens := db.tokens[t := renewed]))
  }

  /** The company branch of POST (views.py 67-95). The company needs an admin
      (the [0] of an empty query raises) and the body an e-mail address; then the
      pending user and the token are fetched or created, and the invite e-mail
      sent. A failed delivery answers "Data Error" but keeps the rows already
      written. On success the answer is the company's roster. */
  ghost function Invite(db: Db, company: Id, body: Body, now: int, mailSent: bool): (s: Step<Outcome>)
    requires Valid(db)
    ensures Valid(s.db) && s.db.companies == db.companies
    ensures AdminsOf(db.users, company) == {} || "email" !in body ==> s == Step(db, Failed(DataError))
    ensures s.result.Roster? ==> s.result.users == RosterOf(s.db.users, Some(company))
    ensures s.result.Roster? || s.result == Failed(DataError)
    // past the checks, the store is the one the two get_or_creates leave
    ensures AdminsOf(db.users, company) != {} && "email" in body ==>
              var e := body["email"];
              && (EnsurePending(db, company, e).None? ==> s == Step(db, Failed(DataError)))
              && (EnsurePending(db, company, e).Some? ==>
                    var db1 := EnsurePending(db, company, e).value;
                    && (IssueToken(db1, company, e, now).None? ==> s == Step(db1, Failed(DataError)))
                    && (IssueToken(db1, company, e, now).Some? ==>
                          s.db == IssueToken(db1, company, e, now).value && (s.result.Roster? <==> mailSent)))
  {
    if AdminsOf(db.users, company) == {} || "email" !in body then Step(db, Failed(DataError))
    else
      var email := body["email"];
      match EnsurePending(db, company, email)
      case None => Step(db, Failed(DataError))
      case Some(db1) =>
        match IssueToken(db1, company, email, now)
        case None => Step(db1, Failed(DataError))
        case Some(db2) =>
          if mailSent then Step(db2, Roster(RosterOf(db2.users, Some(company))))
          else Step(db2, Failed(DataError))
  }

  // ---- POST: accept ------------------------------------------------------

  /** The body keys an accepted invite reads. */
  predicate HasAcceptFields(body: Body) {
    "password" in body && "firstName" in body && "lastName" in body && "phone" in body
  }

  /** The fields an accepted invite sets on the pending user. */
  function Activated(u: User, body: Body): (v: User)
    requires HasAcceptFields(body)
    ensures v.status == Active && v.isVerified
    ensures v.email == u.email && v.company == u.company
    ensures v.password == MadeFrom(body["password"], None) && v.phone == Some(body["phone"])
    ensures v.firstName == body["firstName"] && v.lastName == body["lastName"]
    ensures v.(status := u.status, isVerified := u.isVerified, password := u.password,
               phone := u.phone, firstName := u.firstName, lastName := u.lastName) == u
  {
    u.(password := MadeFrom(body["password"], None), status := Active,
       firstName := body["firstName"], lastName := body["lastName"],
       phone := Some(body["phone"]), isVerified := true)
  }

  /** The invite-token branch of POST (views.py 97-127). The token must carry the
      submitted e-mail address and not have expired; the one pending user of the
      token's company with that address becomes active and verified, takes the
      submitted password, names and phone, and the token is deleted. Every
      failure leaves the store as it was. */
  ghost function Accept(db: Db, token: Id, body: Body, now: int): (s: Step<Outcome>)
    requires Valid(db) && token in db.tokens
    ensures Valid(s.db) && s.db.companies == db.companies && s.db.nextId == db.nextId
    ensures s.result.Failed? ==> s.db == db
    ensures !s.result.Roster?
    // which failure: the first check that fails, in the view's order
    ensures "email" !in body || db.tokens[token].email != body["email"] ==> s == Step(db, Failed(TokenDataError))
    ensures "email" in body && db.tokens[token].email == body["email"] && db.tokens[token].expiration <= now ==>
              s == Step(db, Failed(TokenExpired))
    ensures "email" in body && db.tokens[token].email == body["email"] && db.tokens[token].expiration > now ==>
              && (db.tokens[token].company.None? ==> s == Step(db, Failed(DataError)))
              && (db.tokens[token].company.Some? && |PendingFor(db.users, db.tokens[token].company.value, body["email"])| != 1 ==>
                    s == Step(db, Failed(CannotFindUser)))
              && ((db.tokens[token].company.Some? && |PendingFor(db.users, db.tokens[token].company.value, body["email"])| == 1
                   && !HasAcceptFields(body)) ==> s == Step(db, Failed(TokenDataError)))
  {
    if "email" !in body || db.tokens[token].email != body["email"] then Step(db, Failed(TokenDataError))
    else if !(db.tokens[token].expiration > now) then Step(db, Failed(TokenExpired))
    else if db.tokens[token].company.None? then Step(db, Failed(DataError))
    else
      var pending := PendingFor(db.users, db.tokens[token].company.value, body["email"]);
      if |pending| != 1 then Step(db, Failed(CannotFindUser))
      else if !HasAcceptFields(body) then Step(db, Failed(TokenDataError))
      else
        var user := TheOnly(pending).value;
        Step(db.(users := db.users[user := Activated(db.users[user], body)], tokens := db.tokens - {token}),
             UserData(user))
  }

  // ---- POST: promote -----------------------------------------------------

  /** The user branch of POST (views.py 129-139): the user becomes an admin and
      the answer is the roster of the user's company. */
  ghost function Promote(db: Db, user: Id): (s: Step<Outcome>)
    requires Valid(db) && user in db.users
    ensures Valid(s.db)
    ensures s.db == db.(users := db.users[user := db.users[user].(status := Admin)])
    ensures s.result == Roster(RosterOf(s.db.users, db.users[user].company))
  {
    var users := db.users[user := db.users[user].(status := Admin)];
    Step(db.(users := users), Roster(RosterOf(users, db.users[user].company)))
  }

  // ---- POST: dispatch ----------------------------------------------------

  /** ManageUserView.post: the URL id is tried as a company, then as an invite
      token, then as a user. */
  ghost function Post(db: Db, id: Id, body: Body, now: int, mailSent: bool): (s: Step<Outcome>)
    requires Valid(db)
    ensures Valid(s.db) && s.db.companies == db.companies
    ensures id !in db.companies && id !in db.tokens && id !in db.users <==> s == Step(db, Failed(UserNotFound))
    ensures id in db.companies ==> s == Invite(db, id, body, now, mailSent)
    ensures id !in db.companies && id in db.tokens ==> s == Accept(db, id, body, now)
    ensures id !in db.companies && id !in db.tokens && id in db.users ==> s == Promote(db, id)
  {
    if id in db.companies then Invite(db, id, body, now, mailSent)
    else if id in db.tokens then Accept(db, id, body, now)
    else if id in db.users then Promote(db, id)
    else Step(db, Failed(UserNotFound))
  }

  // ---- PUT ---------------------------------------------------------------

  /** ManageUserView.put (views.py 144-159): overwrite the user's names and
      e-mail address. A missing key fails before anything is saved, and so
      does an address another user already has (IntegrityError on save). */
  ghost function Put(db: Db, user: Id, body: Body): (s: Step<Outcome>)
    requires Valid(db)
    ensures Valid(s.db) && s.db.companies == db.companies && s.db.tokens == db.tokens
    ensures s.result.Failed? || s.result.UserData?
    ensures user !in db.users ==> s == Step(db, Failed(UserNotFound))
    ensures user in db.users && !s.result.UserData? ==> s == Step(db, Failed(DataError))
    ensures s.result.Failed? ==> s.db == db
    ensures s.result.UserData? <==>
              && user in db.users && "firstName" in body && "lastName" in body && "email" in body
              && WithEmail(db.users, body["email"]) <= {user}
    ensures s.result.UserData? ==>
              && s.result.user == user
              && s.db.users == db.users[user := db.users[user].(firstName := body["firstName"],
                                                                lastName := body["lastName"],
                                                                email := body["email"])]
    ensures EmailsUnique(db.users) ==> EmailsUnique(s.db.users)
  {
    if user !in db.users then Step(db, Failed(UserNotFound))
    else if !("firstName" in body && "lastName" in body && "email" in body) then Step(db, Failed(DataError))
    else if WithEmail(db.users, body["email"]) - {user} != {} then Step(db, Failed(DataError))
    else
      var u := db.users[user].(firstName := body["firstName"], lastName := body["lastName"], email := body["email"]);
      if EmailsUnique(db.users) then
        UpdateKeepsEmailsUnique(db.users, user, u);
        Step(db.(users := db.users[user := u]), UserData(user))
      else Step(db.(users := db.users[user := u]), UserData(user))
  }

  // ---- DELETE ------------------------------------------------------------

  /** ManageUserView.delete (views.py 160-172): a one-element body names a user
      that must exist; a longer (or empty) body removes whichever of its ids
      exist. The answer is the roster of the company named in the URL. */
  ghost function Delete(db: Db, company: Id, ids: seq<Id>): (s: Step<Outcome>)
    requires Valid(db)
    ensures Valid(s.db) && s.db.companies == db.companies && s.db.tokens == db.tokens
    ensures |ids| == 1 && ids[0] !in db.users <==> s == Step(db, Failed(DataError))
    ensures !(|ids| == 1 && ids[0] !in db.users) ==> s.result.Roster?
    ensures s.result.Roster? ==>
              && s.db.users == db.users - (set i | i in ids)
              && s.result.users == RosterOf(s.db.users, Some(company))
  {
    if |ids| == 1 && ids[0] !in db.users then Step(db, Failed(DataError))
    else
      var users := db.users - (set i | i in ids);
      Step(db.(users := users), Roster(RosterOf(users, Some(company))))
  }
}

// ---- properties of the manage-user requests ------------------------------
module ManageUserProperties {
  import opened Records
  import opened ManageUser

  /** An invite that gets past the admin and e-mail checks, on a store that
      does not already hold duplicate rows for the address and where the
      address is either pending for the company or unused, leaves exactly one
      pending user and exactly one token for (company, email), the token
      expiring one day from now, whether or not the e-mail went out. */
  lemma InviteLeavesOnePendingUserAndToken(db: Db, company: Id, body: Body, now: int, mailSent: bool)
    requires Valid(db) && AdminsOf(db.users, company) != {} && "email" in body
    requires |PendingFor(db.users, company, body["email"])| <= 1
    requires PendingFor(db.users, company, body["email"]) != {} || WithEmail(db.users, body["email"]) == {}
    requires |TokensFor(db.tokens, company, body["email"])| <= 1
    ensures var s := Invite(db, company, body, now, mailSent);
            var e := body["email"];
            && |PendingFor(s.db.users, company, e)| == 1
            && |TokensFor(s.db.tokens, company, e)| == 1
            && (forall t :: t in TokensFor(s.db.tokens, company, e) ==> s.db.tokens[t].expiration == now + Day)
            && (s.result.Roster? <==> mailSent)
  {
    var e := body["email"];
    var db1 := EnsurePending(db, company, e).value;
    var db2 := IssueToken(db1, company, e, now).value;
    var t :| TokensFor(db2.tokens, company, e) == {t} && db2.tokens[t].expiration == now + Day;
  }

  /** Inviting an address that some user already has, but that is not pending
      for the inviting company, is refused and changes nothing: the new row
      would break the unique e-mail column. */
  lemma InviteOfTakenAddressRefused(db: Db, company: Id, body: Body, now: int, mailSent: bool)
    requires Valid(db) && AdminsOf(db.users, company) != {} && "email" in body
    requires PendingFor(db.users, company, body["email"]) == {} && WithEmail(db.users, body["email"]) != {}
    ensures Invite(db, company, body, now, mailSent) == Step(db, Failed(DataError))
  {
  }

  /** With unique addresses no (company, email) pair has two pending users, so
      the pending-user get_or_create only fails on an address taken elsewhere. */
  lemma {:induction false} UniqueEmailsMeanOnePending(users: map<Id, User>, company: Id, email: string)
    requires EmailsUnique(users)
    ensures |PendingFor(users, company, email)| <= 1
  {
    var p := PendingFor(users, company, email);
    if p != {} {
      var i :| i in p;
      forall j | j in p
        ensures j == i
      {
        assert users[j].email == users[i].email;
      }
      assert p == {i};
    }
  }

  /** An accepted invite keeps the address of the user it activates, so it
      keeps the addresses unique. */
  lemma {:induction false} AcceptKeepsEmailsUnique(db: Db, token: Id, body: Body, now: int)
    requires Valid(db) && EmailsUnique(db.users) && token in db.tokens
    ensures EmailsUnique(Accept(db, token, body, now).db.users)
  {
    var s := Accept(db, token, body, now);
    if s.result.UserData? {
      AcceptActivatesThePendingUser(db, token, body, now);
      var u := s.result.user;
      assert WithEmail(db.users, db.users[u].email) <= {u};
      UpdateKeepsEmailsUnique(db.users, u, Activated(db.users[u], body));
    }
  }

  /** A promotion changes only the status, so it keeps the addresses unique. */
  lemma {:induction false} PromoteKeepsEmailsUnique(db: Db, id: Id)
    requires Valid(db) && EmailsUnique(db.users) && id in db.users
    ensures EmailsUnique(Promote(db, id).db.users)
  {
    assert WithEmail(db.users, db.users[id].email) <= {id};
    UpdateKeepsEmailsUnique(db.users, id, db.users[id].(status := Admin));
  }

  /** An invite adds at most the pending user, whose address no one had, so it
      keeps the addresses unique. */
  lemma {:induction false} InviteKeepsEmailsUnique(db: Db, company: Id, body: Body, now: int, mailSent: bool)
    requires Valid(db) && EmailsUnique(db.users)
    ensures EmailsUnique(Invite(db, company, body, now, mailSent).db.users)
  {
    if AdminsOf(db.users, company) != {} && "email" in body {
      var e := body["email"];
      if EnsurePending(db, company, e).Some? {
        var db1 := EnsurePending(db, company, e).value;
        if IssueToken(db1, company, e, now).Some? {
          assert IssueToken(db1, company, e, now).value.users == db1.users;
        }
      }
    }
  }

  /** Every POST, PUT and DELETE keeps the addresses of the user table unique. */
  lemma {:induction false} RequestsKeepEmailsUnique(db: Db, id: Id, body: Body, now: int, mailSent: bool, ids: seq<Id>)
    requires Valid(db) && EmailsUnique(db.users)
    ensures EmailsUnique(Post(db, id, body, now, mailSent).db.users)
    ensures EmailsUnique(Put(db, id, body).db.users)
    ensures EmailsUnique(Delete(db, id, ids).db.users)
  {
    if id in db.companies {
      InviteKeepsEmailsUnique(db, id, body, now, mailSent);
    } else if id in db.tokens {
      AcceptKeepsEmailsUnique(db, id, body, now);
    } else if id in db.users {
      PromoteKeepsEmailsUnique(db, id);
    }
  }

  /** Adding a pending user keeps every admin. */
  lemma EnsurePendingKeepsAdmins(db: Db, company: Id, email: string)
    requires Valid(db) && EnsurePending(db, company, email).Some?
    ensures AdminsOf(db.users, company) <= AdminsOf(EnsurePending(db, company, email).value.users, company)
  {
    var db1 := EnsurePending(db, company, email).value;
    forall a | a in AdminsOf(db.users, company)
      ensures a in AdminsOf(db1.users, company)
    {
      if PendingFor(db.users, company, email) == {} {
        assert db1.users == db.users[db.nextId := NewPendingUser(company, email)];
        assert a != db.nextId;
      }
    }
  }

  /** Inviting the same address twice: the second invite adds no user and no
      token; it keeps the one token and moves its expiration to one day after
      the second invite. */
  lemma RepeatInviteRenewsToken(db: Db, company: Id, body: Body, now1: int, now2: int, mail1: bool, mail2: bool)
    requires Valid(db) && AdminsOf(db.users, company) != {} && "email" in body
    requires |PendingFor(db.users, company, body["email"])| <= 1
    requires PendingFor(db.users, company, body["email"]) != {} || WithEmail(db.users, body["email"]) == {}
    requires |TokensFor(db.tokens, company, body["email"])| <= 1
    ensures var s1 := Invite(db, company, body, now1, mail1);
            var s2 := Invite(s1.db, company, body, now2, mail2);
            var e := body["email"];
            && s2.db.users == s1.db.users && s2.db.nextId == s1.db.nextId
            && TokensFor(s2.db.tokens, company, e) == TokensFor(s1.db.tokens, company, e)
            && |TokensFor(s2.db.tokens, company, e)| == 1
            && (forall t :: t in TokensFor(s2.db.tokens, company, e) ==> s2.db.tokens[t].expiration == now2 + Day)
            && (s2.result.Roster? <==> mail2)
  {
    var e := body["email"];
    var s1 := Invite(db, company, body, now1, mail1);
    InviteLeavesOnePendingUserAndToken(db, company, body, now1, mail1);
    EnsurePendingKeepsAdmins(db, company, e);
    var db1 := EnsurePending(db, company, e).value;
    assert s1.db == IssueToken(db1, company, e, now1).value;
    assert AdminsOf(s1.db.users, company) != {};
    InviteLeavesOnePendingUserAndToken(s1.db, company, body, now2, mail2);
    assert EnsurePending(s1.db, company, e) == Some(s1.db);
  }

  /** Accepting succeeds exactly when the token carries the submitted address,
      has not expired, names a company whose pending users with that address
      are exactly one, and the body has every field; then that user, and no
      other, becomes active and verified with the submitted data, and the
      token is gone. */
  lemma AcceptActivatesThePendingUser(db: Db, token: Id, body: Body, now: int)
    requires Valid(db) && token in db.tokens
    ensures var t := db.tokens[token];
            var s := Accept(db, token, body, now);
            && (s.result.UserData? <==>
                  && "email" in body && t.email == body["email"] && t.expiration > now
                  && t.company.Some? && |PendingFor(db.users, t.company.value, t.email)| == 1
                  && HasAcceptFields(body))
            && (s.result.UserData? ==>
                  && PendingFor(db.users, t.company.value, t.email) == {s.result.user}
                  && s.db.users == db.users[s.result.user := Activated(db.users[s.result.user], body)]
                  && s.db.tokens == db.tokens - {token})
  {
  }

  /** A token that was used is spent: posting its id again (an id that names no
      company or user) answers "User Not Found" and changes nothing. */
  lemma AcceptedTokenIsSpent(db: Db, token: Id, body: Body, now: int, body2: Body, now2: int, mailSent: bool)
    requires Valid(db) && token in db.tokens && token !in db.companies && token !in db.users
    requires Accept(db, token, body, now).result.UserData?
    ensures var s := Accept(db, token, body, now);
            Post(s.db, token, body2, now2, mailSent) == Step(s.db, Failed(UserNotFound))
  {
  }

  // ---- the invite invariant --------------------------------------------

  /** Every token that names a company is the only token for its (company,
      email) pair, and that pair has exactly one pending user to activate. */
  ghost predicate InvitesBacked(db: Db) {
    forall t :: t in db.tokens && db.tokens[t].company.Some? ==>
      && TokensFor(db.tokens, db.tokens[t].company.value, db.tokens[t].email) == {t}
      && |PendingFor(db.users, db.tokens[t].company.value, db.tokens[t].email)| == 1
  }

  /** In a backed store no pair has two tokens, so the token get_or_create
      of an invite never fails. */
  lemma BackedPairsHaveOneToken(db: Db, company: Id, email: string)
    requires InvitesBacked(db)
    ensures |TokensFor(db.tokens, company, email)| <= 1
  {
    if TokensFor(db.tokens, company, email) != {} {
      var t :| t in TokensFor(db.tokens, company, email);
    }
  }

  /** The pending-user get_or_create for (company, email) leaves the pending
      users of every other pair as they were. */
  lemma EnsurePendingKeepsOtherPairs(db: Db, company: Id, email: string, c: Id, e: string)
    requires Valid(db) && EnsurePending(db, company, email).Some?
    requires c != company || e != email
    ensures PendingFor(EnsurePending(db, company, email).value.users, c, e) == PendingFor(db.users, c, e)
  {
    if PendingFor(db.users, company, email) == {} {
      PendingForUpdate(db.users, db.nextId, NewPendingUser(company, email), c, e);
    }
  }

  /** The token get_or_create for (company, email) leaves the tokens of every
      other pair as they were. */
  lemma IssueTokenKeepsOtherPairs(db: Db, company: Id, email: string, now: int, c: Id, e: string)
    requires Valid(db) && IssueToken(db, company, email, now).Some?
    requires c != company || e != email
    ensures TokensFor(IssueToken(db, company, email, now).value.tokens, c, e) == TokensFor(db.tokens, c, e)
  {
    var matching := TokensFor(db.tokens, company, email);
    var k: Id;
    var tok: InviteToken;
    if matching == {} {
      k, tok := db.nextId, InviteToken(Some(company), email, now + Day);
    } else {
      k := TheOnly(matching).value;
      tok := db.tokens[k].(expiration := now + Day);
    }
    assert IssueToken(db, company, email, now).value.tokens == db.tokens[k := tok];
    TokensForUpdate(db.tokens, k, tok, c, e);
    assert k !in TokensFor(db.tokens, c, e);
  }

  /** Inviting keeps every token backed by its pending user. */
  lemma {:induction false} InvitePreservesBacking(db: Db, company: Id, body: Body, now: int, mailSent: bool)
    requires Valid(db) && InvitesBacked(db)
    ensures InvitesBacked(Invite(db, company, body, now, mailSent).db)
  {
    if AdminsOf(db.users, company) == {} || "email" !in body { return; }
    var e := body["email"];
    if EnsurePending(db, company, e).None? { return; }
    var db1 := EnsurePending(db, company, e).value;
    BackedPairsHaveOneToken(db, company, e);
    var db2 := IssueToken(db1, company, e, now).value;
    assert Invite(db, company, body, now, mailSent).db == db2;
    forall t | t in db2.tokens && db2.tokens[t].company.Some?
      ensures TokensFor(db2.tokens, db2.tokens[t].company.value, db2.tokens[t].email) == {t}
      ensures |PendingFor(db2.users, db2.tokens[t].company.value, db2.tokens[t].email)| == 1
    {
      var c', e' := db2.tokens[t].company.value, db2.tokens[t].email;
      if c' == company && e' == e {
        var t1 :| TokensFor(db2.tokens, company, e) == {t1} && db2.tokens[t1].expiration == now + Day;
        assert t in TokensFor(db2.tokens, company, e);
      } else {
        EnsurePendingKeepsOtherPairs(db, company, e, c', e');
        IssueTokenKeepsOtherPairs(db1, company, e, now, c', e');
        assert t in TokensFor(db.tokens, c', e');
      }
    }
  }

  /** Accepting keeps every remaining token backed: the deleted token was the
      only one for the activated user's pair. */
  lemma AcceptPreservesBacking(db: Db, token: Id, body: Body, now: int)
    requires Valid(db) && InvitesBacked(db) && token in db.tokens
    ensures InvitesBacked(Accept(db, token, body, now).db)
  {
    var s := Accept(db, token, body, now);
    if s.result.UserData? {
      var c, e := db.tokens[token].company.value, db.tokens[token].email;
      var u := s.result.user;
      AcceptActivatesThePendingUser(db, token, body, now);
      forall t | t in s.db.tokens && s.db.tokens[t].company.Some?
        ensures TokensFor(s.db.tokens, s.db.tokens[t].company.value, s.db.tokens[t].email) == {t}
        ensures |PendingFor(s.db.users, s.db.tokens[t].company.value, s.db.tokens[t].email)| == 1
      {
        var c', e' := s.db.tokens[t].company.value, s.db.tokens[t].email;
        assert t in db.tokens && t != token;
        if c' == c && e' == e {
          assert false;
        }
        TokensForRemove(db.tokens, token, c', e');
        PendingForUpdate(db.users, u, Activated(db.users[u], body), c', e');
        assert u !in PendingFor(db.users, c', e');
      }
    }
  }

  /** A company (id 0) with its admin (1), one invited user still pending (2)
      and the invitee's token (3). */
  function InvitedStore(): (db: Db)
    ensures Valid(db) && 2 in db.users && db.users[2].status == Pending
  {
    var acme := Company("Acme", "secret", None);
    var admin := User("boss@acme", Some(0), Admin, "B", "O", None, Unusable, true, None, None, false, false);
    Db(map[0 := acme], map[1 := admin, 2 := NewPendingUser(0, "new@acme")],
       map[3 := InviteToken(Some(0), "new@acme", 1000)], 4)
  }

  lemma InvitedStoreIsBacked()
    ensures InvitesBacked(InvitedStore())
  {
    var db := InvitedStore();
    assert PendingFor(db.users, 0, "new@acme") == {2};
    assert TokensFor(db.tokens, 0, "new@acme") == {3};
  }

  /** Promoting is not guarded by status: promoting an invited, still pending
      user leaves its token without a pending user, and accepting that token
      then answers "Cannot find user". */
  lemma PromotingAPendingUserOrphansItsToken()
    ensures InvitesBacked(InvitedStore())
    ensures var promoted := Promote(InvitedStore(), 2).db;
            var body := map["email" := "new@acme", "password" := "pw", "firstName" := "N",
                            "lastName" := "E", "phone" := "1"];
            && !InvitesBacked(promoted)
            && Post(promoted, 3, body, 0, true) == Step(promoted, Failed(CannotFindUser))
  {
    InvitedStoreIsBacked();
    var promoted := Promote(InvitedStore(), 2).db;
    assert PendingFor(promoted.users, 0, "new@acme") == {};
    assert 3 in promoted.tokens && promoted.tokens[3].company == Some(0);
  }
}

=== FILE: records.dfy ===
/** The account store of the accounts app: companies, users and invite tokens
    held as maps from ids to records, and the ORM queries the account views run
    over them. Every id is a natural number from one counter shared by the three
    tables, so a new row never takes an id another row already has. */
module Records {

  type Id = nat

  datatype Option<T> = None | Some(value: T)

  /** Times are whole seconds on the UTC clock; an invite lives for one day. */
  const Day: int := 86400

  /** Microseconds per second: datetime.now() reads the clock to the
      microsecond, while token claims hold whole seconds. */
  const Micro: int := 1000000

  /** CustomUser.status. */
  datatype Status = Pending | Active | Admin

  /** What the password column holds. make_password is a foreign salted hash;
      the model keeps the raw text and the salt it was given, which is enough to
      say which request set the password. */
  datatype Password = Unusable | MadeFrom(raw: string, salt: Option<string>)

  datatype Company = Company(name: string, accessToken: string, franchise: Option<Id>)

  datatype User = User(
    email: string,
    company: Option<Id>,
    status: Status,
    firstName: string,
    lastName: string,
    phone: Option<string>,
    password: Password,
    isVerified: bool,
    otpBase32: Option<string>,
    otpAuthUrl: Option<string>,
    otpEnabled: bool,
    otpVerified: bool)

  datatype InviteToken = InviteToken(company: Option<Id>, email: string, expiration: int)

  /** The whole store, as one value. */
  datatype Db = Db(
    companies: map<Id, Company>,
    users: map<Id, User>,
    tokens: map<Id, InviteToken>,
    nextId: Id)

  /** A request's effect: the store afterwards and what the view answered. */
  datatype Step<R> = Step(db: Db, result: R)

  /** Every stored id is below nextId, so nextId names no row of any table. */
  ghost predicate Valid(db: Db) {
    && (forall id :: id in db.companies ==> id < db.nextId)
    && (forall id :: id in db.users ==> id < db.nextId)
    && (forall id :: id in db.tokens ==> id < db.nextId)
  }

  /** Store a user under the next free id. */
  function AddUser(db: Db, u: User): (r: Db)
    requires Valid(db)
    ensures Valid(r) && r.nextId == db.nextId + 1
    ensures db.nextId !in db.users && r.users == db.users[db.nextId := u]
    ensures r.companies == db.companies && r.tokens == db.tokens
  {
    db.(users := db.users[db.nextId := u], nextId := db.nextId + 1)
  }

  /** Store an invite token under the next free id. */
  function AddToken(db: Db, t: InviteToken): (r: Db)
    requires Valid(db)
    ensures Valid(r) && r.nextId == db.nextId + 1
    ensures db.nextId !in db.tokens && r.tokens == db.tokens[db.nextId := t]
    ensures r.companies == db.companies && r.users == db.users
  {
    db.(tokens := db.tokens[db.nextId := t], nextId := db.nextId + 1)
  }

  // ---- ORM queries -------------------------------------------------------

  predicate IsPendingFor(u: User, company: Id, email: string) {
    u.email == email && u.company == Some(company) && u.status == Pending
  }

  /** CustomUser.objects.filter(email=email, company=company, status='pending') */
  function PendingFor(users: map<Id, User>, company: Id, email: string): set<Id> {
    set id | id in users && IsPendingFor(users[id], company, email)
  }

  /** InviteToken.objects.filter(company=company, email=email) */
  function TokensFor(tokens: map<Id, InviteToken>, company: Id, email: string): set<Id> {
    set id | id in tokens && tokens[id].company == Some(company) && tokens[id].email == email
  }

  /** CustomUser.objects.filter(company=company, status='admin') */
  function AdminsOf(users: map<Id, User>, company: Id): set<Id> {
    set id | id in users && users[id].company == Some(company) && users[id].status == Admin
  }

  /** CustomUser.objects.filter(company=company, isVerified=True) */
  function VerifiedOf(users: map<Id, User>, company: Id): set<Id> {
    set id | id in users && users[id].company == Some(company) && users[id].isVerified
  }

  /** CustomUser.objects.filter(company=company): a company's roster. Filtering
      on None selects the users without a company, as the ORM's IS NULL does. */
  function RosterOf(users: map<Id, User>, company: Option<Id>): set<Id> {
    set id | id in users && users[id].company == company
  }

  /** CustomUser.objects.filter(email=email) */
  function WithEmail(users: map<Id, User>, email: string): set<Id> {
    set id | id in users && users[id].email == email
  }

  /** The user table's unique e-mail column: no two users share an address. */
  ghost predicate EmailsUnique(users: map<Id, User>) {
    forall i, j :: i in users && j in users && i != j ==> users[i].email != users[j].email
  }

  /** Writing row k keeps the addresses unique when no other row has the
      address written. */
  lemma UpdateKeepsEmailsUnique(users: map<Id, User>, k: Id, u: User)
    requires EmailsUnique(users) && WithEmail(users, u.email) <= {k}
    ensures EmailsUnique(users[k := u])
  {
    var users' := users[k := u];
    forall i, j | i in users' && j in users' && i != j
      ensures users'[i].email != users'[j].email
    {
      if i == k {
        assert j !in WithEmail(users, u.email);
      } else if j == k {
        assert i !in WithEmail(users, u.email);
      }
    }
  }

  /** Company.objects.filter(name=name, accessToken=accessToken) */
  function CompaniesMatching(companies: map<Id, Company>, name: string, accessToken: string): set<Id> {
    set id | id in companies && companies[id].name == name && companies[id].accessToken == accessToken
  }

  /** Django's .get(): the one row a query selects; none when it selects no
      row (DoesNotExist) or several (MultipleObjectsReturned). */
  ghost function TheOnly(s: set<Id>): (r: Option<Id>)
    ensures r.Some? <==> |s| == 1
    ensures r.Some? ==> s == {r.value}
  {
    if |s| == 1 then
      var x :| x in s;
      SingletonIs(s, x);
      Some(x)
    else None
  }

  lemma SingletonIs(s: set<Id>, x: Id)
    requires |s| == 1 && x in s
    ensures s == {x}
  {
    var rest := s - {x};
    assert |rest| == 0;
  }

  // ---- how the queries change when one row changes ---------------------

  lemma PendingForUpdate(users: map<Id, User>, k: Id, u: User, company: Id, email: string)
    ensures PendingFor(users[k := u], company, email)
         == (PendingFor(users, company, email) - {k}) + (if IsPendingFor(u, company, email) then {k} else {})
  {
  }

  lemma PendingForRemove(users: map<Id, User>, ks: set<Id>, company: Id, email: string)
    ensures PendingFor(users - ks, company, email) == PendingFor(users, company, email) - ks
  {
  }

  lemma TokensForUpdate(tokens: map<Id, InviteToken>, k: Id, t: InviteToken, company: Id, email: string)
    ensures TokensFor(tokens[k := t], company, email)
         == (TokensFor(tokens, company, email) - {k}) + (if t.company == Some(company) && t.email == email then {k} else {})
  {
  }

  lemma TokensForRemove(tokens: map<Id, InviteToken>, k: Id, company: Id, email: string)
    ensures TokensFor(tokens - {k}, company, email) == TokensFor(tokens, company, email) - {k}
  {
  }
}

=== FILE: registration.dfy ===
/** RegisterView, VerifyRegistrationView and confirmation (accounts/views.py):
    first-admin sign-up with a company access token, and e-mail verification
    through a signed token. */
module Registration {
  import opened Records

  // ---- RegisterView.post -------------------------------------------------

  /** The body of a sign-up; data.get yields None for an absent key. */
  datatype RegisterRequest = RegisterRequest(
    firstName: Option<string>,
    lastName: Option<string>,
    email: Option<string>,
    password: Option<string>,
    company: Option<string>,
    accessToken: Option<string>,
    phone: Option<string>)

  /** The entries of messages['errors'], in the order the view appends them. */
  datatype FieldError =
    | FirstNameEmpty | LastNameEmpty | EmailEmpty | PasswordEmpty
    | CompanyEmpty | AccessTokenEmpty | EmailInUse

  function ErrorText(e: FieldError): string {
    match e
    case FirstNameEmpty => "first_name can't be empty"
    case LastNameEmpty => "last_name can't be empty"
    case EmailEmpty => "Email can't be empty"
    case PasswordEmpty => "Password can't be empty"
    case CompanyEmpty => "Company can't be empty"
    case AccessTokenEmpty => "Access Token can't be empty"
    case EmailInUse => "Account already exists with this email id."
  }

  /** Position of each check in the view. */
  function Rank(e: FieldError): nat {
    match e
    case FirstNameEmpty => 0
    case LastNameEmpty => 1
    case EmailEmpty => 2
    case PasswordEmpty => 3
    case CompanyEmpty => 4
    case AccessTokenEmpty => 5
    case EmailInUse => 6
  }

  /** The address is taken when some user has it (filter(email=None) matches
      no stored user: every stored address is a string). */
  predicate EmailTaken(users: map<Id, User>, email: Option<string>) {
    email.Some? && WithEmail(users, email.value) != {}
  }

  /** Whether the check that appends e finds a fault in the request. */
  predicate Fails(users: map<Id, User>, req: RegisterRequest, e: FieldError) {
    match e
    case FirstNameEmpty => req.firstName.None?
    case LastNameEmpty => req.lastName.None?
    case EmailEmpty => req.email.None?
    case PasswordEmpty => req.password.None?
    case CompanyEmpty => req.company.None?
    case AccessTokenEmpty => req.accessToken.None?
    case EmailInUse => EmailTaken(users, req.email)
  }

  /** The checks of views.py 254-269, in the order the view runs them. */
  const Checks: seq<FieldError> :=
    [FirstNameEmpty, LastNameEmpty, EmailEmpty, PasswordEmpty, CompanyEmpty, AccessTokenEmpty, EmailInUse]

  /** Every error has its check, and Checks lists them by rank. */
  lemma ChecksCoverEveryError()
    ensures forall i :: 0 <= i < |Checks| ==> Rank(Checks[i]) == i
    ensures forall e :: e in Checks
  {
    forall e: FieldError
      ensures e in Checks
    {
      assert Checks[Rank(e)] == e;
    }
  }

  ghost predicate InCheckOrder(errs: seq<FieldError>) {
    forall i, j :: 0 <= i < j < |errs| ==> Rank(errs[i]) < Rank(errs[j])
  }

  /** Run the checks one after another, appending the ones that fail;
      `checks` is the tail of Checks that starts at position `from`. */
  function Collect(checks: seq<FieldError>, from: nat, failing: set<FieldError>): (errs: seq<FieldError>)
    requires forall i :: 0 <= i < |checks| ==> Rank(checks[i]) == from + i
    ensures forall e :: e in errs <==> e in checks && e in failing
    ensures forall e :: e in errs ==> from <= Rank(e)
    ensures InCheckOrder(errs)
  {
    if checks == [] then []
    else
      assert forall i :: 0 <= i < |checks[1..]| ==> checks[1..][i] == checks[i + 1];
      var rest := Collect(checks[1..], from + 1, failing);
      assert checks == [checks[0]] + checks[1..];
      if checks[0] in failing then [checks[0]] + rest
      else rest
  }

  /** The error list of views.py 253-269: each missing field (phone is not
      checked) and a taken address, each once, in the order of the checks. */
  function FieldErrors(users: map<Id, User>, req: RegisterRequest): (errs: seq<FieldError>)
    ensures forall e :: e in errs <==> Fails(users, req, e)
    ensures InCheckOrder(errs)
  {
    ChecksCoverEveryError();
    Collect(Checks, 0, set e | e in Checks && Fails(users, req, e))
  }

  /** A request without field errors has all six fields and a free address. */
  lemma NoFieldErrors(users: map<Id, User>, req: RegisterRequest)
    requires FieldErrors(users, req) == []
    ensures && req.firstName.Some? && req.lastName.Some? && req.email.Some?
            && req.password.Some? && req.company.Some? && req.accessToken.Some?
            && WithEmail(users, req.email.value) == {}
  {
    var errs := FieldErrors(users, req);
    assert !Fails(users, req, FirstNameEmpty) && !Fails(users, req, LastNameEmpty);
    assert !Fails(users, req, EmailEmpty) && !Fails(users, req, PasswordEmpty);
    assert !Fails(users, req, CompanyEmpty) && !Fails(users, req, AccessTokenEmpty);
    assert !Fails(users, req, EmailInUse);
  }

  datatype RegisterOutcome =
    | Registered(user: Id)
    | Rejected(errors: seq<FieldError>)
    | CompanyNotFound          // Company.objects.get raised: no company, or several, with that name and token
    | AccessTokenAlreadyUsed

  /** The first admin of a company, as CustomUser.objects.create writes it. */
  function NewAdmin(req: RegisterRequest, company: Id, salt: string): (u: User)
    requires req.firstName.Some? && req.lastName.Some? && req.email.Some? && req.password.Some?
    ensures u.status == Admin && u.isVerified && u.company == Some(company)
    ensures u.email == req.email.value && u.phone == req.phone
    ensures u.firstName == req.firstName.value && u.lastName == req.lastName.value
    ensures u.otpBase32.None? && u.otpAuthUrl.None? && !u.otpEnabled && !u.otpVerified
    ensures u.password == MadeFrom(req.password.value, Some(salt))
  {
    User(req.email.value, Some(company), Admin, req.firstName.value, req.lastName.value, req.phone,
         MadeFrom(req.password.value, Some(salt)), true, None, None, false, false)
  }

  /** The company Company.objects.get(name=company, accessToken=accessToken)
      returns; None when it raises, because no company or several match. */
  ghost function MatchedCompany(companies: map<Id, Company>, req: RegisterRequest): Option<Id> {
    if req.company.None? || req.accessToken.None? then None
    else TheOnly(CompaniesMatching(companies, req.company.value, req.accessToken.value))
  }

  /** RegisterView.post (views.py 244-301); salt is the uuid4 hex the view
      draws for make_password. */
  ghost function Register(db: Db, req: RegisterRequest, salt: string): (s: Step<RegisterOutcome>)
    requires Valid(db)
    ensures Valid(s.db)
    ensures !s.result.Registered? ==> s.db == db
    ensures s.result.Rejected? <==> FieldErrors(db.users, req) != []
    ensures s.result.Rejected? ==> s.result.errors == FieldErrors(db.users, req)
    // a complete request: the outcome is decided by the company lookup
    ensures FieldErrors(db.users, req) == [] ==>
              && (s.result == CompanyNotFound <==> MatchedCompany(db.companies, req).None?)
              && (s.result == AccessTokenAlreadyUsed <==>
                    MatchedCompany(db.companies, req).Some?
                    && VerifiedOf(db.users, MatchedCompany(db.companies, req).value) != {})
              && (s.result.Registered? <==>
                    MatchedCompany(db.companies, req).Some?
                    && VerifiedOf(db.users, MatchedCompany(db.companies, req).value) == {})
    ensures s.result.Registered? ==>
              && req.firstName.Some? && req.lastName.Some? && req.email.Some? && req.password.Some?
              && MatchedCompany(db.companies, req).Some?
              && var c := MatchedCompany(db.companies, req).value;
              && VerifiedOf(db.users, c) == {}
              && s.result.user == db.nextId
              && s.db == db.(users := db.users[db.nextId := NewAdmin(req, c, salt)], nextId := db.nextId + 1)
    ensures EmailsUnique(db.users) ==> EmailsUnique(s.db.users)
  {
    var errs := FieldErrors(db.users, req);
    if errs != [] then Step(db, Rejected(errs))
    else
      NoFieldErrors(db.users, req);
      match MatchedCompany(db.companies, req)
      case None => Step(db, CompanyNotFound)
      case Some(c) =>
        if VerifiedOf(db.users, c) != {} then Step(db, AccessTokenAlreadyUsed)
        else
          var u := NewAdmin(req, c, salt);
          if EmailsUnique(db.users) then
            UpdateKeepsEmailsUnique(db.users, db.nextId, u);
            Step(AddUser(db, u), Registered(db.nextId))
          else Step(AddUser(db, u), Registered(db.nextId))
  }

  // ---- signed tokens -----------------------------------------------------

  /** A signed token as the decoder sees it: whether the HS256 signature checks
      against the secret key, and the claims it carries. */
  datatype Jwt = Jwt(signatureValid: bool, userId: Option<Id>, exp: Option<int>)

  datatype Decoded = Claims(userId: Option<Id>, exp: Option<int>) | ExpiredSignature | DecodeError

  /** jwt.decode of PyJWT 1.x (the API the views call) with its default
      options and no leeway; now is the clock in whole seconds. A bad
      signature is a DecodeError; an exp claim strictly before now is an
      ExpiredSignatureError. */
  function DecodeJwt(t: Jwt, now: int): (d: Decoded)
    ensures d.Claims? <==> t.signatureValid && (t.exp.None? || t.exp.value >= now)
    ensures d == ExpiredSignature <==> t.signatureValid && t.exp.Some? && t.exp.value < now
    ensures d.Claims? ==> d.userId == t.userId && d.exp == t.exp
  {
    if !t.signatureValid then DecodeError
    else if t.exp.Some? && t.exp.value < now then ExpiredSignature
    else Claims(t.userId, t.exp)
  }

  /** The store after a user is marked verified. */
  function MarkVerified(db: Db, user: Id): (r: Db)
    requires Valid(db) && user in db.users
    ensures Valid(r) && r.users == db.users[user := db.users[user].(isVerified := true)]
    ensures r.companies == db.companies && r.tokens == db.tokens && r.nextId == db.nextId
  {
    if db.users[user].isVerified then db
    else db.(users := db.users[user := db.users[user].(isVerified := true)])
  }

  // ---- VerifyRegistrationView.post ---------------------------------------

  datatype Activation = ActivationOk | ActivationExpired | InvalidToken

  function ActivationText(a: Activation): string {
    match a
    case ActivationOk => "Successfully activated"
    case ActivationExpired => "Activation Expired"
    case InvalidToken => "Invalid token"
  }

  /** VerifyRegistrationView.post (views.py 221-237); token is None when the
      body has no "token" key. The only change it can make is to set the
      user's isVerified. */
  ghost function VerifyRegistration(db: Db, token: Option<Jwt>, now: int): (s: Step<Activation>)
    requires Valid(db)
    ensures Valid(s.db)
    ensures s.result.ActivationOk? <==>
              && token.Some? && DecodeJwt(token.value, now).Claims?
              && token.value.userId.Some? && token.value.userId.value in db.users
    ensures s.result == ActivationExpired <==> token.Some? && DecodeJwt(token.value, now).ExpiredSignature?
    ensures s.result.ActivationOk? ==> s.db == MarkVerified(db, token.value.userId.value)
    ensures !s.result.ActivationOk? ==> s.db == db
  {
    if token.None? then Step(db, InvalidToken)
    else
      match DecodeJwt(token.value, now)
      case ExpiredSignature => Step(db, ActivationExpired)
      case DecodeError => Step(db, InvalidToken)
      case Claims(uid, _) =>
        if uid.None? || uid.value !in db.users then Step(db, InvalidToken)
        else Step(MarkVerified(db, uid.value), ActivationOk)
  }

  // ---- confirmation ------------------------------------------------------

  /** What the confirmation link answers: a redirect to the login page, the
      "Your activation link has been expired" page, or an unhandled exception
      (a server error). */
  datatype ConfirmAnswer = RedirectToLogin | LinkExpired | ServerError

  /** The branches of views.py 308-320, once the user and the exp claim are
      in hand. nowUs is datetime.now() in microseconds since the epoch, and
      fromtimestamp(exp) is exp whole seconds, so the view compares exp *
      Micro with nowUs. */
  function ConfirmClaims(db: Db, user: Id, exp: int, nowUs: int): (s: Step<ConfirmAnswer>)
    requires Valid(db) && user in db.users
    ensures Valid(s.db)
    ensures s.result != ServerError
    ensures s.result == LinkExpired <==> exp * Micro < nowUs
    ensures s.db == if !db.users[user].isVerified && exp * Micro > nowUs then MarkVerified(db, user) else db
  {
    if !db.users[user].isVerified && exp * Micro > nowUs then Step(MarkVerified(db, user), RedirectToLogin)
    else if exp * Micro < nowUs then Step(db, LinkExpired)
    else Step(db, RedirectToLogin)
  }

  /** confirmation as written (views.py 304-320): an unknown user raises, and
      the token goes through jwt.decode with its default options, which
      already raises on a token whose exp is before the current second;
      nothing catches either. */
  function ConfirmAsWritten(db: Db, pk: Jwt, user: Id, nowUs: int): (s: Step<ConfirmAnswer>)
    requires Valid(db)
    ensures Valid(s.db)
    ensures s.result == ServerError <==>
              || user !in db.users || !pk.signatureValid || pk.exp.None?
              || pk.exp.value < nowUs / Micro
    ensures s.result == ServerError ==> s.db == db
    ensures s.result != ServerError ==> s == ConfirmClaims(db, user, pk.exp.value, nowUs)
  {
    if user !in db.users then Step(db, ServerError)
    else
      match DecodeJwt(pk, nowUs / Micro)
      case Claims(_, exp) =>
        if exp.None? then Step(db, ServerError) else ConfirmClaims(db, user, exp.value, nowUs)
      case _ => Step(db, ServerError)
  }

  /** The confirmation link as its expiry branch intends: the signature is
      checked, the exp claim is left to the view's own comparison. */
  function Confirm(db: Db, pk: Jwt, user: Id, nowUs: int): (s: Step<ConfirmAnswer>)
    requires Valid(db)
    ensures Valid(s.db)
    ensures s.result == ServerError <==> user !in db.users || !pk.signatureValid || pk.exp.None?
    ensures s.result == ServerError ==> s.db == db
    ensures s.result != ServerError ==> s == ConfirmClaims(db, user, pk.exp.value, nowUs)
  {
    if user !in db.users || !pk.signatureValid || pk.exp.None? then Step(db, ServerError)
    else ConfirmClaims(db, user, pk.exp.value, nowUs)
  }
}

// ---- properties of registration and e-mail verification -------------------
module RegistrationProperties {
  import opened Records
  import opened Registration

  /** The access token bootstraps one admin only: once a sign-up succeeded,
      no later sign-up that resolves to the same company succeeds, and it adds
      no user. */
  lemma RegistrationSucceedsOncePerCompany(db: Db, req: RegisterRequest, salt: string, req2: RegisterRequest, salt2: string)
    requires Valid(db) && Register(db, req, salt).result.Registered?
    requires MatchedCompany(db.companies, req2) == MatchedCompany(db.companies, req)
    ensures var s := Register(db, req, salt);
            var s2 := Register(s.db, req2, salt2);
            !s2.result.Registered? && s2.db == s.db
  {
    var s := Register(db, req, salt);
    var c := MatchedCompany(db.companies, req).value;
    assert s.result.user in VerifiedOf(s.db.users, c);
  }

  /** Confirming an e-mail address twice is confirming it once. */
  lemma VerifyRegistrationIdempotent(db: Db, token: Option<Jwt>, now: int)
    requires Valid(db)
    ensures var s := VerifyRegistration(db, token, now);
            VerifyRegistration(s.db, token, now).db == s.db
  {
  }

  /** Verification never clears the flag and touches no other field. */
  lemma VerifyRegistrationOnlySetsFlag(db: Db, token: Option<Jwt>, now: int, u: Id)
    requires Valid(db) && u in db.users
    ensures var s := VerifyRegistration(db, token, now);
            && u in s.db.users
            && (db.users[u].isVerified ==> s.db.users[u].isVerified)
            && s.db.users[u].(isVerified := db.users[u].isVerified) == db.users[u]
            && s.db.users.Keys == db.users.Keys
  {
  }

  /** As written, confirmation all but never shows its expiry page: a token
      whose exp is before the current second makes jwt.decode raise first, a
      server error, so the page is reached only by a token that expires
      within the current second. */
  lemma ConfirmAsWrittenHidesExpiry(db: Db, pk: Jwt, user: Id, nowUs: int)
    requires Valid(db)
    ensures pk.exp.Some? && pk.exp.value < nowUs / Micro ==> ConfirmAsWritten(db, pk, user, nowUs) == Step(db, ServerError)
    ensures ConfirmAsWritten(db, pk, user, nowUs).result == LinkExpired ==>
              pk.exp.Some? && pk.exp.value == nowUs / Micro
  {
  }

  /** A link that expired two seconds ago: as written the view fails, while
      the intended view shows the expiry page. */
  lemma ExpiredLinkAnswers(db: Db, user: Id)
    requires Valid(db) && user in db.users
    ensures var pk := Jwt(true, Some(user), Some(100));
            && ConfirmAsWritten(db, pk, user, 102 * Micro) == Step(db, ServerError)
            && Confirm(db, pk, user, 102 * Micro) == Step(db, LinkExpired)
  {
  }

  /** With the exp claim left to the view, an expired link answers the expiry
      page and changes nothing; an unexpired one marks an unverified user
      verified and redirects. */
  lemma ConfirmReportsExpiry(db: Db, pk: Jwt, user: Id, nowUs: int)
    requires Valid(db)
    ensures var s := Confirm(db, pk, user, nowUs);
            && (s.result == LinkExpired <==>
                  user in db.users && pk.signatureValid && pk.exp.Some? && pk.exp.value * Micro < nowUs)
            && (s.result == LinkExpired ==> s.db == db)
            && (user in db.users && pk.signatureValid && pk.exp.Some? && pk.exp.value * Micro > nowUs ==>
                  s == Step(MarkVerified(db, user), RedirectToLogin))
  {
  }
}

=== FILE: scopes.dfy ===
/** requires_scope (accounts/views.py 40-59): the access token's "scope" claim
    is split on whitespace, as Python's str.split() with no argument does, and
    the request passes when one of the pieces equals the required scope. */
module Scopes {
  import opened Records

  /** The characters str.split() breaks on (Python's str.isspace). */
  predicate IsSpace(c: char) {
    || c == ' ' || c == '\t' || c == '\n' || c == '\r' || c == '\U{0B}' || c == '\U{0C}'
    || ('\U{1C}' <= c <= '\U{1F}') || c == '\U{85}' || c == '\U{A0}' || c == '\U{1680}'
    || ('\U{2000}' <= c <= '\U{200A}') || c == '\U{2028}' || c == '\U{2029}'
    || c == '\U{202F}' || c == '\U{205F}' || c == '\U{3000}'
  }

  /** A piece split() can produce: non-empty, without whitespace. */
  predicate IsWord(w: string) {
    w != [] && forall i :: 0 <= i < |w| ==> !IsSpace(w[i])
  }

  /** Drop the leading whitespace. */
  function DropSpaces(s: string): (r: string)
    ensures |r| <= |s| && r == s[|s| - |r|..]
    ensures r == [] || !IsSpace(r[0])
  {
    if s != [] && IsSpace(s[0]) then DropSpaces(s[1..]) else s
  }

  /** The length of the longest prefix without whitespace. */
  function WordLength(s: string): (n: nat)
    ensures n <= |s|
    ensures forall i :: 0 <= i < n ==> !IsSpace(s[i])
    ensures n < |s| ==> IsSpace(s[n])
  {
    if s == [] || IsSpace(s[0]) then 0 else 1 + WordLength(s[1..])
  }

  /** str.split(): the maximal runs of non-whitespace, in order. */
  function Split(s: string): (words: seq<string>)
    ensures forall w :: w in words ==> IsWord(w)
    decreases |s|
  {
    var t := DropSpaces(s);
    if t == [] then []
    else
      var n := WordLength(t);
      [t[..n]] + Split(t[n..])
  }

  /** The words joined with single spaces, as a token issuer writes a scope
      claim. */
  function Join(words: seq<string>): string {
    if words == [] then ""
    else if |words| == 1 then words[0]
    else words[0] + " " + Join(words[1..])
  }

  /** The source's loop over the pieces, stopping at the first match. */
  method HasScope(scopes: seq<string>, required: string) returns (found: bool)
    ensures found <==> required in scopes
  {
    var i := 0;
    while i < |scopes|
      invariant 0 <= i <= |scopes|
      invariant required !in scopes[..i]
    {
      if scopes[i] == required {
        return true;
      }
      i := i + 1;
    }
    return false;
  }

  /** The decorator's decision; scope is the decoded claim, None when the
      token has none. An absent or empty claim is refused (403). */
  method Authorize(scope: Option<string>, required: string) returns (granted: bool)
    ensures granted <==> scope.Some? && required in Split(scope.value)
    ensures granted ==> IsWord(required)
  {
    if scope.None? || scope.value == "" {
      return false;
    }
    var scopes := Split(scope.value);
    granted := HasScope(scopes, required);
  }

  // ---- split and join are inverse on words -------------------------------

  lemma {:induction false} WordLengthOfWord(w: string, rest: string)
    requires forall i :: 0 <= i < |w| ==> !IsSpace(w[i])
    requires rest == [] || IsSpace(rest[0])
    ensures WordLength(w + rest) == |w|
  {
    if w != [] {
      assert (w + rest)[1..] == w[1..] + rest;
      WordLengthOfWord(w[1..], rest);
    }
  }

  lemma SplitSkipsSpace(c: char, s: string)
    requires IsSpace(c)
    ensures Split([c] + s) == Split(s)
  {
    assert ([c] + s)[1..] == s;
  }

  /** A word followed by whitespace or by nothing is split off whole. */
  lemma SplitWordThen(w: string, rest: string)
    requires IsWord(w)
    requires rest == [] || IsSpace(rest[0])
    ensures Split(w + rest) == [w] + Split(rest)
  {
    var s := w + rest;
    WordLengthOfWord(w, rest);
    assert DropSpaces(s) == s;
    assert s[..|w|] == w;
    assert s[|w|..] == rest;
  }

  /** Joining at least two words puts a single space after the first. */
  lemma JoinCons(words: seq<string>)
    requires |words| >= 2
    ensures Join(words) == words[0] + ([' '] + Join(words[1..]))
  {
    assert words[0] + " " + Join(words[1..]) == words[0] + ([' '] + Join(words[1..]));
  }

  /** Splitting a claim made by joining words gives the words back. */
  lemma {:induction false} SplitJoin(words: seq<string>)
    requires forall w :: w in words ==> IsWord(w)
    ensures Split(Join(words)) == words
  {
    if words == [] {
    } else if |words| == 1 {
      assert words[0] in words;
      SplitWordThen(words[0], "");
      assert words[0] + "" == words[0];
    } else {
      var w, tail := words[0], words[1..];
      assert words == [w] + tail;
      var rest := Join(tail);
      assert w in words;
      JoinCons(words);
      SplitWordThen(w, [' '] + rest);
      SplitSkipsSpace(' ', rest);
      assert forall v :: v in tail ==> v in words;
      SplitJoin(tail);
    }
  }

  /** A claim that lists scopes separated by spaces grants exactly the listed
      scopes. */
  lemma JoinedClaimGrantsListed(words: seq<string>, required: string)
    requires forall w :: w in words ==> IsWord(w)
    ensures required in Split(Join(words)) <==> required in words
  {
    SplitJoin(words);
  }
}

=== FILE: two_factor.dfy ===
/** The four OTP views of accounts/views.py: a flag machine over a user's
    otp_base32, otp_auth_url, otp_enabled and otp_verified. The TOTP check is
    a foreign library bound to the clock; it is the parameter `totp`, which
    answers whether `code` is right for `secret` at the current instant within
    `window` adjacent time steps. */
module TwoFactor {
  import opened Records

  type Totp = (string, string, nat) -> bool

  /** What an OTP view answers. OtpNotVerified is the "One Time Password
      incorrect" list; ServerError is an exception no handler catches. */
  datatype OtpOutcome = OtpOk(user: Id) | NoSuchUser | OtpNotGenerated | OtpNotVerified | OtpRejected | ServerError

  /** The "detail" text of each refusal. */
  function DetailText(o: OtpOutcome): string
    requires !o.OtpOk? && o != ServerError
  {
    match o
    case NoSuchUser => "CustomUser matching query does not exist."
    case OtpNotGenerated => "OTP not generated for this user"
    case OtpNotVerified => "One Time Password incorrect"
    case OtpRejected => "OTP verification failed"
  }

  /** The store with one user replaced. */
  function SetUser(db: Db, id: Id, u: User): (r: Db)
    requires Valid(db) && id in db.users
    ensures Valid(r) && r.users == db.users[id := u]
    ensures r.companies == db.companies && r.tokens == db.tokens && r.nextId == db.nextId
  {
    db.(users := db.users[id := u])
  }

  /** OTPGenerateView.post (views.py 348-365): store a fresh secret (the
      random_base32 draw, a parameter) and its provisioning URI, built by the
      foreign `uri` from the secret and the user's address; the two flags stay
      as they were. */
  ghost function Generate(db: Db, id: Id, secret: string, uri: (string, string) -> string): (s: Step<OtpOutcome>)
    requires Valid(db)
    ensures Valid(s.db)
    ensures id !in db.users <==> s == Step(db, NoSuchUser)
    ensures id in db.users ==>
              && s.result == OtpOk(id)
              && var u := db.users[id];
              && s.db == SetUser(db, id, u.(otpBase32 := Some(secret), otpAuthUrl := Some(uri(secret, u.email))))
  {
    if id !in db.users then Step(db, NoSuchUser)
    else
      var u := db.users[id];
      Step(SetUser(db, id, u.(otpAuthUrl := Some(uri(secret, u.email)), otpBase32 := Some(secret))), OtpOk(id))
  }

  /** OTPVerifyView.post (views.py 372-392): with a secret stored, a code the
      TOTP check accepts in the current step only (window 0) turns both flags
      on; any other answer changes nothing. */
  ghost function Verify(db: Db, id: Id, code: string, totp: Totp): (s: Step<OtpOutcome>)
    requires Valid(db)
    ensures Valid(s.db)
    ensures !s.result.OtpOk? ==> s.db == db
    ensures id !in db.users <==> s.result == NoSuchUser
    ensures id in db.users && db.users[id].otpBase32.None? <==> s.result == OtpNotGenerated
    ensures s.result.OtpOk? <==>
              id in db.users && db.users[id].otpBase32.Some? && totp(db.users[id].otpBase32.value, code, 0)
    ensures s.result.OtpOk? ==>
              s.db == SetUser(db, id, db.users[id].(otpEnabled := true, otpVerified := true))
    ensures s.result == OtpRejected <==>
              id in db.users && db.users[id].otpBase32.Some? && !totp(db.users[id].otpBase32.value, code, 0)
    ensures s.result.OtpOk? ==> s.result == OtpOk(id)
  {
    if id !in db.users then Step(db, NoSuchUser)
    else
      var u := db.users[id];
      if u.otpBase32.None? then Step(db, OtpNotGenerated)
      else if totp(u.otpBase32.value, code, 0) then
        Step(SetUser(db, id, u.(otpEnabled := true, otpVerified := true)), OtpOk(id))
      else Step(db, OtpRejected)
  }

  /** OTPValidateView.post (views.py 399-418), the login-time check. It reads
      the store and writes nothing. A missing user raises outside any handler.
      The not-verified fault is noted first but reported only after a missing
      secret; the code is checked with one adjacent time step either way. */
  function Validate(db: Db, id: Id, code: string, totp: Totp): (r: OtpOutcome)
    ensures r.OtpOk? <==>
              && id in db.users && db.users[id].otpVerified && db.users[id].otpBase32.Some?
              && totp(db.users[id].otpBase32.value, code, 1)
    ensures r == OtpNotGenerated <==> id in db.users && db.users[id].otpBase32.None?
    ensures r == OtpNotVerified <==>
              id in db.users && db.users[id].otpBase32.Some? && !db.users[id].otpVerified
    ensures r == ServerError <==> id !in db.users
    ensures r.OtpOk? ==> r == OtpOk(id)
    ensures r == OtpRejected <==>
              && id in db.users && db.users[id].otpVerified && db.users[id].otpBase32.Some?
              && !totp(db.users[id].otpBase32.value, code, 1)
  {
    if id !in db.users then ServerError
    else
      var u := db.users[id];
      var notVerified := !u.otpVerified;
      if u.otpBase32.None? then OtpNotGenerated
      else if notVerified then OtpNotVerified
      else if totp(u.otpBase32.value, code, 1) then OtpOk(id)
      else OtpRejected
  }

  /** OTPDisableView.post (views.py 425-438): clear the secret, the URI and
      both flags, whatever they were. */
  ghost function Disable(db: Db, id: Id): (s: Step<OtpOutcome>)
    requires Valid(db)
    ensures Valid(s.db)
    ensures id !in db.users <==> s == Step(db, NoSuchUser)
    ensures id in db.users ==>
              && s.result == OtpOk(id)
              && s.db == SetUser(db, id, db.users[id].(otpEnabled := false, otpVerified := false,
                                                       otpBase32 := None, otpAuthUrl := None))
  {
    if id !in db.users then Step(db, NoSuchUser)
    else
      Step(SetUser(db, id, db.users[id].(otpEnabled := false, otpVerified := false,
                                         otpBase32 := None, otpAuthUrl := None)), OtpOk(id))
  }
}

// ---- properties of the OTP flag machine -----------------------------------
module TwoFactorProperties {
  import opened Records
  import opened TwoFactor

  /** Generate, then verify with a code the check accepts for the new secret:
      both flags are on, and a login code the check accepts with one step of
      slack is then validated. The check is a parameter with no stated relation
      between its windows (pyotp accepts at window 1 every code it accepts at
      window 0, but the model does not assume so), so the login code's
      acceptance is required on its own. */
  lemma GenerateVerifyValidate(db: Db, id: Id, secret: string, uri: (string, string) -> string,
                               code: string, loginCode: string, totp: Totp)
    requires Valid(db) && id in db.users
    requires totp(secret, code, 0) && totp(secret, loginCode, 1)
    ensures var g := Generate(db, id, secret, uri);
            var v := Verify(g.db, id, code, totp);
            && v.result == OtpOk(id)
            && v.db.users[id].otpEnabled && v.db.users[id].otpVerified
            && v.db.users[id].otpBase32 == Some(secret)
            && Validate(v.db, id, loginCode, totp) == OtpOk(id)
  {
  }

  /** After disable, validation reports a missing secret whatever the code,
      and verification cannot turn the flags back on. */
  lemma DisableThenValidate(db: Db, id: Id, code: string, totp: Totp)
    requires Valid(db) && id in db.users
    ensures var d := Disable(db, id);
            && !d.db.users[id].otpEnabled && !d.db.users[id].otpVerified
            && Validate(d.db, id, code, totp) == OtpNotGenerated
            && Verify(d.db, id, code, totp) == Step(d.db, OtpNotGenerated)
  {
  }

  /** Regenerating a secret keeps the flags, so a user who verified once still
      validates, now against the new secret. */
  lemma RegenerateKeepsVerification(db: Db, id: Id, secret: string, uri: (string, string) -> string,
                                    code: string, totp: Totp)
    requires Valid(db) && id in db.users && db.users[id].otpVerified
    requires totp(secret, code, 1)
    ensures var g := Generate(db, id, secret, uri);
            g.db.users[id].otpVerified == db.users[id].otpVerified
            && g.db.users[id].otpEnabled == db.users[id].otpEnabled
            && Validate(g.db, id, code, totp) == OtpOk(id)
  {
  }
}
